=== FILE: README.md ===
# mpd-cpabe in Dafny

A model of the core of mpd-cpabe: the two CP-ABE command-line tools
`cpabe-enc` and `cpabe-dec`, and the policy compiler `mpd_policy.c`.
The compiler turns the `AttributesGroup` subtrees of a DASH MPD
(manifest) into textual CP-ABE policies. It also renames the manifest's
`BaseURL` entries, so that `cpabe-enc -x` can encrypt every referenced
media file under the policy of the matching Representation.

The model is purely functional.

- **XML.** A parsed document is a recursive `Node` datatype: elements
  with a name, a property list and children, and text nodes with
  content. Whitespace text nodes stay in the child lists, because the
  compiler's separator rule counts them (`xml.dfy`).
- **Policy compiler.** Every `exit(n)` of the compiler becomes
  `Exit(n)` of a `Result` (`results.dfy`), with the codes kept:
  - 1 for a bad element;
  - 2 for an incomplete attribute;
  - 3 for an unknown group property.
  The modules are `spaces.dfy`, `policy_compiler.dfy` and `base_url.dfy`.
  The tag names and constants of `mpd_policy.h` are in `mpd_names.dfy`.
- **Command-line tools.** Both tools are total functions from the
  argument list and a file system (`map<string, Bytes>`) to an
  `Outcome`: the files as the process leaves them, and the exit status
  (`enc_tool.dfy`, `dec_tool.dfy`).
  - A process that dies keeps the files it already wrote.
  - The CP-ABE scheme, AES-128-CBC, the policy-language parser, the
    container codec and the random source are uninterpreted. They are
    fields of a `Primitives` record (`cpabe.dfy`).
  - What the tools need from these collaborators is stated as two
    predicates:
    - decrypting what was encrypted gives the plaintext back as a
      prefix, because CBC pads;
    - reading a container gives back the fields that were written.
- **Properties** are in `policy_properties.dfy`, `enc_properties.dfy`,
  `dec_properties.dfy` and `pipeline.dfy`. Worked documents are in
  `policy_examples.dfy`.

Where the system's design description and the code disagree, the model
follows the code:

- **`cpabe-enc` has no same-path guard.** Removal of the input is not
  skipped when the output names it. `cpabe-enc -o FILE PUB FILE POLICY`
  writes the container over `FILE` and then unlinks it
  (`EncProperties.SingleRules`). `cpabe-dec` does have its guard, but
  only for `-k` (see Findings).
- **Operators come from the parent of the first sibling.** They are
  read from the properties of the parent of the first sibling handed to
  the group call. That parent is the group itself only for nested
  groups.
- **Every top-level policy is wrapped twice.** The top-level call
  receives the `AttributesGroup` node itself, so its parent is the
  Representation. No operator is read there, and the result is an extra
  `( … )` around the group's own rendering. There is also `", "` before
  the extra closer when two or more text nodes follow the group
  (`PolicyProperties.TopLevelWrapper`). A Logical AND of `A` and
  `B = 5` compiles to `( ( A and B = 5 ) )`
  (`PolicyExamples.LogicalAndExample`).
- **The Composition opener is `"<n> of ("`**, with no blank after the
  parenthesis. The closer is always `" )"`, so a threshold compiles to
  `( 2 of (x, y, z ) )` (`PolicyExamples.CompositionExample`).
- **Only direct children count.** Only a direct `AttributesGroup` child
  of a Representation is compiled, not any descendant.
- **The separator test counts siblings, not elements.** A separator
  follows an element when at least two more siblings follow it. In a
  document without whitespace between tags, the last two renderings
  therefore run together (`PolicyProperties.CompactGroup`).
- **A wildcard leaf still needs its `Value` and `Operator` children.**
  The completeness test comes before the wildcard test.
- **A scheme error in batch mode ends the whole run.** The outputs
  already written stay.

## Model

| member | source | states |
|---|---|---|
| `Spaces.RemoveSpaces` | mpd_policy.c:66-72 | no space survives; the result is no longer than the input and holds only characters of the input |
| `Spaces.RemoveSpacesLoop` | mpd_policy.c:66-72 | the two-pointer copy loop computes exactly the space filter |
| `Spaces.RemoveSpacesKeepsOrder` | mpd_policy.c:66-72 | the result is obtained from the input by deletions only, so order is kept |
| `Spaces.RemoveSpacesKeepsOthers` | mpd_policy.c:66-72 | every non-space character keeps its number of occurrences, and no space remains |
| `Spaces.RemoveSpacesIdempotent` | mpd_policy.c:66-72 | removing spaces twice is removing them once |
| `Spaces.RemoveSpacesKeepsSpaceFree` | mpd_policy.c:66-72 | a string without spaces is left unchanged |
| `Xml.LastContent` | mpd_policy.c:84-88 | `last->content` is present exactly when the last child is a text node, and is then that node's content |
| `Xml.SetContent` | mpd_policy.c:297 | the node keeps its name and properties and reads back exactly the new content |
| `Xml.LastIndexOf` | mpd_policy.c:81-94 | the position an overwrite-on-match scan ends on: a matching element with no match after it, or none at all |
| `Xml.FirstIndexOf` | mpd_policy.c:212-226 | the first matching element child (the loop breaks there), or none at all |
| `PolicyCompiler.LastPropIndex` | mpd_policy.c:140-149 | the last property with the given name, with no later one, or none at all |
| `PolicyCompiler.ReadProps` | mpd_policy.c:140-149 | exits with 3 exactly when some property is neither OperatorType nor OperatorValue; otherwise the last occurrence of each wins |
| `PolicyCompiler.GroupOpsOf` | mpd_policy.c:139-150 | properties are read only when the parent is an AttributesGroup; otherwise no operator is set |
| `PolicyCompiler.ReadFields` | mpd_policy.c:81-94 | exits with 1 exactly when some element child is not Name/Value/Operator; otherwise each field holds the content of its last occurrence |
| `PolicyCompiler.RenderAttribute` | mpd_policy.c:74-125 | a leaf exits with 1 exactly on a foreign element child, otherwise with 2 exactly when a field is missing or has no text, and otherwise renders the last Name, Operator and Value with their blanks removed, or the name alone for the wildcard value |
| `PolicyCompiler.RenderElement` | mpd_policy.c:159-168 | an element that is neither a group nor an Attribute exits with 1, and every exit code is 1, 2 or 3 |
| `PolicyCompiler.RenderChild` | mpd_policy.c:170-187 | one sibling exits only with one of the three compiler codes |
| `PolicyCompiler.RenderFrom` | mpd_policy.c:159-189 | the sibling loop exits only with one of the three compiler codes |
| `PolicyCompiler.RenderGroup` | mpd_policy.c:127-194 | a group call exits only with one of the three compiler codes |
| `PolicyCompiler.GroupShape` | mpd_policy.c:139-191 | an unknown group property exits with 3; output opens with `"<n> of ("` under Composition and with `"( "` otherwise, and always ends with `" )"` |
| `PolicyCompiler.PolicyOf` | mpd_policy.c:211-227 | a Representation yields a policy exactly when it has an AttributesGroup child, and that policy opens with `"( "` |
| `PolicyCompiler.Policies` | mpd_policy.c:196-229 | the policy count is the number of nodes with a group, so at most the node count; exits carry the compiler's codes |
| `PolicyProperties.LeafParenFree` | mpd_policy.c:100-124 | a leaf built from parenthesis-free fields has no parenthesis |
| `PolicyProperties.ElementBalanced` | mpd_policy.c:159-171 | a rendered child element has balanced parentheses when its texts have none |
| `PolicyProperties.ChildBalanced` | mpd_policy.c:170-187 | a child's rendering plus its separator is balanced |
| `PolicyProperties.FromBalanced` | mpd_policy.c:159-189 | the concatenated sibling renderings are balanced |
| `PolicyProperties.GroupBalanced` | mpd_policy.c:152-191 | a rendered group is balanced when no leaf text or operator value holds a parenthesis |
| `PolicyProperties.PolicyBalanced` | mpd_policy.c:211-226 | a compiled policy is balanced when the group child and the siblings after it, the only children the walk visits, hold no parenthesis |
| `PolicyProperties.InterleavedStep` | mpd_policy.c:159-189 | rendering from the whitespace before element `m` joins the renderings from `m` on |
| `PolicyProperties.InterleavedEnd` | mpd_policy.c:159-160 | the closing whitespace of a pretty list renders as nothing |
| `PolicyProperties.InterleavedFrom` | mpd_policy.c:159-189 | rendering a pretty list from position `2m` joins the element renderings from `m` on with the separator |
| `PolicyProperties.InterleavedGroup` | mpd_policy.c:127-194 | a pretty-printed group renders as opener, element renderings joined by the separator, closer |
| `PolicyProperties.CompactFrom` | mpd_policy.c:159-189 | without whitespace, separators appear between all renderings but the last two |
| `PolicyProperties.CompactGroup` | mpd_policy.c:127-194 | a group without whitespace renders its last two elements with nothing between them |
| `PolicyProperties.BadChildExits` | mpd_policy.c:163-168 | a foreign element after siblings that rendered ends the group with exit 1 |
| `PolicyProperties.TextOnlyRendersEmpty` | mpd_policy.c:159-160 | a run of text siblings renders as nothing |
| `PolicyProperties.TopLevelWrapper` | mpd_policy.c:212-215 | a Representation's policy is `"( " + group + " )"`, with `", "` before the closer when two or more siblings follow the group |
| `PolicyProperties.TopLevelSiblingExits` | mpd_policy.c:159-168 | a foreign element after the top-level group makes the whole policy exit with 1 |
| `PolicyProperties.PoliciesLastFirst` | mpd_policy.c:208-226 | the first policy is the last node's, followed by the policies of the nodes before it |
| `PolicyProperties.PoliciesReverseOrder` | mpd_policy.c:208-226 | when every node has a group, policy `k` is the policy of node `nodeNr - 1 - k` |
| `PolicyProperties.PoliciesSkip` | mpd_policy.c:213-226 | a last node without a group adds no policy and leaves the others unchanged |
| `PolicyProperties.PoliciesInReverse` | mpd_policy.c:196-229 | the walk succeeds exactly when every node compiles; the list is then the nodes' policies in reverse document order, group-less nodes adding none; otherwise it exits with the code of the last node that exits |
| `PolicyExamples.LeafRenders` | mpd_policy.c:74-124 | a Name/Operator/Value leaf renders as the leaf text of its fields |
| `PolicyExamples.PlainLeafText` | mpd_policy.c:105-124 | fields without blanks give `name op value`, or just `name` for the wildcard |
| `PolicyExamples.GroupPropsRead` | mpd_policy.c:139-149 | a group's OperatorType and OperatorValue properties are the operators it uses |
| `PolicyExamples.PrettyGroupRenders` | mpd_policy.c:127-194 | a pretty-printed group of leaves joins them all with its separator |
| `PolicyExamples.CompactGroupRenders` | mpd_policy.c:127-194 | the same group without whitespace leaves out the last separator |
| `PolicyExamples.WrappedPolicy` | mpd_policy.c:212-215 | a pretty Representation with one group gets the extra wrapper |
| `PolicyExamples.CompactWrappedPolicy` | mpd_policy.c:212-215 | so does a compact one |
| `PolicyExamples.AndPairPolicy` | mpd_policy.c:174-183 | a pretty AND of two elements is `( ( t1 and t2 ) )` |
| `PolicyExamples.CompactAndPairPolicy` | mpd_policy.c:174 | the compact AND of two elements is `( ( t1t2 ) )` |
| `PolicyExamples.ThresholdTriplePolicy` | mpd_policy.c:152-191 | a pretty threshold over three elements is `( n of (t1, t2, t3 ) )` |
| `PolicyExamples.LogicalAndExample` | mpd_policy.c:105-191 | a wildcard leaf AND a comparison compiles to `( ( a and b = v ) )` |
| `PolicyExamples.CompactLogicalExample` | mpd_policy.c:174 | the same document without whitespace compiles to `( ( ab = v ) )` |
| `PolicyExamples.CompositionExample` | mpd_policy.c:152-154 | a threshold over three wildcard leaves compiles to `( n of (x, y, z ) )` |
| `BaseUrls.SuffixBuffer` | mpd_policy.c:287-295 | the zeroed buffer filled by the two copies is the old text followed by `"_out"` |
| `BaseUrls.FileNames` | mpd_policy.c:274-284 | one name per BaseURL node |
| `BaseUrls.Renamed` | mpd_policy.c:286-299 | one rewritten node per BaseURL node |
| `BaseUrls.ParseNodesForFilesNames` | mpd_policy.c:262-303 | `files_counter == nodeNr`; name `k` is the original text of node `nodeNr - 1 - k`; each node keeps its name and properties and holds only its text plus `"_out"` |
| `BaseUrls.RenamedReadsBack` | mpd_policy.c:276-297 | a rewritten node reads back as its captured name plus `"_out"`, `SUFFIX_LEN` longer, and stripping the suffix gives the name |
| `BaseUrls.ParseXml` | mpd_policy.c:336-355 | an unreadable document changes nothing; a readable one succeeds exactly when the policy compiler does, and then yields the compiled policies and the captured file names; otherwise it exits with the compiler's own code |
| `Cpabe.Resize` | dec.c:157-158 | the buffer gets exactly the recorded length and keeps its prefix |
| `Cpabe.OpenSealed` | dec.c:150-161 | opening a container with the session key it was sealed under restores the plaintext exactly |
| `EncTool.EncStep` | enc.c:47-93 | help and version exit with 0; `-k` sets keep, `-d` sets deterministic and `-o FILE` sets the output, each changing nothing else; `-o` and `-x` consume the next argument and die with 1 without one; nothing else consumes |
| `EncTool.XmlStep` | enc.c:73-79 | `-x FILE` compiles a readable MPD and records its policies and names, ignores an unreadable one, and surfaces the compiler's exit |
| `EncTool.PlainStep` | enc.c:80-93 | a plain argument fills the key, then the input, then the policy (only without an MPD), and otherwise dies with 1 |
| `EncTool.EncScan` | enc.c:47-93 | the loop exits only with 0 to 3; a key or input once taken, `-k`, `-d` and a read MPD are never undone |
| `EncTool.EncSetup` | enc.c:95-103 | the checks die with 1 exactly when the key is missing or there is neither an input nor an MPD; the key and `-d` carry over; batch mode exactly with an MPD |
| `EncTool.EncMain` | enc.c:108-189 | the status is 0 to 3; a run that dies while reading its arguments, or whose public key file is missing, changes no file |
| `EncTool.RunBatch` | enc.c:122-164 | the batch loop ends with status 0 or 1 |
| `EncTool.RunSingle` | enc.c:165-186 | single mode ends with status 0 or 1 |
| `EncProperties.SetupRules` | enc.c:95-103 | no key or no input and no MPD dies with 1; batch mode exactly with an MPD; the output defaults to `FILE.cpabe` and the policy to stdin |
| `EncProperties.BatchReadsPrefix` | enc.c:125-126 | pairs `i` to `n` read only the first `n` policies and files |
| `EncProperties.BatchIgnoresSurplus` | enc.c:125-126 | batch mode runs `min(policies_counter, files_counter)` pairs and ignores the surplus |
| `EncProperties.BatchKeepsOthers` | enc.c:126-155 | batch mode removes nothing; every new file is some pair's output; every other file keeps its contents |
| `EncProperties.BatchSplit` | enc.c:126-155 | running pairs `i` to `n` is running `i` to `k` and then, if nothing died, `k` to `n` |
| `EncProperties.BatchStopsAtSchemeError` | enc.c:129-130 | a scheme error at pair `k` ends with status 1, keeping earlier outputs and writing nothing later |
| `EncProperties.DistinctOutputs` | enc.c:142-146 | distinct files have distinct `_out` names |
| `EncProperties.BatchWritesEveryPair` | enc.c:126-155 | with independent pairs that all succeed, the output of pair `j` is `files[j]`'s container under `policies[j]`, with its length recorded |
| `EncProperties.SingleRules` | enc.c:165-186 | single mode writes the container with the plaintext's length to the output and unlinks the input exactly without `-k`; other files are untouched |
| `EncProperties.DeterministicIgnoresEnvironment` | enc.c:69-72 | under `-d` the run does not depend on the environment's randomness |
| `EncProperties.StepIgnoresNext` | enc.c:47-93 | a turn for any other word does not look at the following argument |
| `EncProperties.ScanAppend` | enc.c:47-93 | scanning a prefix that ends normally and then the rest is scanning the rest from the prefix's state |
| `EncProperties.ScanShift` | enc.c:47-93 | scanning is independent of the arguments before the start position |
| `EncProperties.DanglingOptionDies` | enc.c:62-79 | `-o` or `-x` as the last argument dies with 1 |
| `EncProperties.PlainArguments` | enc.c:47-103 | plain arguments are accepted exactly when there are two or three; the output is `FILE.cpabe`; the policy comes from the third argument or stdin |
| `EncProperties.XmlSelectsBatch` | enc.c:73-79 | `-x` with a readable MPD selects batch mode on its policies and file names; a compiler exit surfaces; an unreadable MPD is ignored |
| `EncProperties.KeepAndOutputOptions` | enc.c:58-68 | `-k -o OUT PUB FILE POLICY` keeps the input and writes to `OUT`; `-o OUT PUB FILE` reads the policy from stdin |
| `EncProperties.DeterministicUsesSeed` | enc.c:69-72 | `-d PUB FILE POLICY` runs single mode with the seeded draws and otherwise the plain defaults |
| `DecTool.DecStep` | dec.c:60-115 | help and version exit with 0; `-k` sets keep, `-d` sets deterministic and `-o FILE` sets the output, each changing nothing else; only `-o` consumes the next argument and dies with 1 without one |
| `DecTool.PlainStep` | dec.c:102-115 | a plain argument fills the public key, then the private key, then the input, and a fourth one dies with 1 |
| `DecTool.DecScan` | dec.c:60-115 | the loop exits only with 0 or 1 |
| `DecTool.DecOutputName` | dec.c:120-127 | the name changes exactly when it is longer than `.cpabe` and ends with it, and then loses exactly that suffix; otherwise the input itself is the output |
| `DecTool.DecSetup` | dec.c:117-130 | the setup dies only with 1 |
| `DecTool.Decrypt` | dec.c:147-161 | decryption dies only with 1 and otherwise adds exactly the output path |
| `DecTool.FinishAsWritten` | dec.c:163-164 | the input is removed exactly without `-k`, even when it is the output; every remaining file keeps its bytes |
| `DecTool.Finish` | dec.c:15-18 | the corrected last step removes the input exactly when `-k` is absent and the input is not the output, so the freshly written output survives; every remaining file keeps its bytes |
| `DecTool.DecMainAsWritten` | dec.c:145-164 | a run that does not end normally changes no file |
| `DecTool.DecMain` | dec.c:145-164 | the same for the corrected run |
| `DecProperties.OutputNameRules` | dec.c:120-127 | stripping `.cpabe` inverts appending it; the name changes exactly when it is longer than 6 and ends with `.cpabe` |
| `DecProperties.SetupRules` | dec.c:117-130 | a missing file argument dies; `-o` overrides the derived name; keeping is refused exactly when the output is the input |
| `DecProperties.PlainArguments` | dec.c:102-118 | plain arguments are accepted exactly when there are three: key, private key and input, with the derived output |
| `DecProperties.OutputOverride` | dec.c:75-81 | `-o FILE` replaces the derived name; with `-k`, naming the input as output is refused |
| `DecProperties.ScanShift` | dec.c:60-115 | scanning is independent of the arguments before the start position |
| `DecProperties.ScanAppend` | dec.c:60-115 | scanning a prefix that ends normally and then the rest is scanning the rest from the prefix's state |
| `DecProperties.DanglingOutputDies` | dec.c:75-78 | `-o` as the last argument dies with 1 |
| `DecProperties.DecryptRestores` | dec.c:147-161 | a container sealed under a key the private key recovers decrypts to the exact plaintext at the output; nothing else changes |
| `DecProperties.FailedDecryptionWritesNothing` | dec.c:147-154 | a missing file or a key that does not satisfy the policy dies with 1 before anything is written |
| `DecProperties.FinishAgrees` | dec.c:163-164 | the corrected and as-written last steps agree unless the input is decrypted in place without `-k` |
| `DecProperties.InPlaceDecryption` | dec.c:163-164 | decrypting in place without `-k` ends with status 0 and no file at the input's name; corrected, the plaintext is left there |
| `Pipeline.CommandLineRoundTrip` | enc.c:165-186 | `cpabe-enc PUB FILE POLICY` then `cpabe-dec PUB PRV FILE.cpabe` restores `FILE` and removes only `FILE.cpabe` |
| `Pipeline.SealedFileDecrypts` | dec.c:117-164 | `cpabe-dec PUB PRV FILE.cpabe` on a container the private key opens writes the plaintext to `FILE` and removes the container, with either last step |
| `Pipeline.BatchOutputIsDecryptedInPlace` | dec.c:120-127 | a batch output name `X_out` has no `.cpabe`, so it is decrypted in place |
| `Pipeline.BatchOutputRoundTrip` | enc.c:142-148 | decrypting a batch output with the corrected last step leaves the original bytes under the output's name; as written, the file is gone |

## Left out

- `validate_xml` and `write_result_to_xml` (mpd_policy.c:3-64) are never called. The BaseURL rewrite is therefore never written out; `Extracted.rewritten` only exposes it.
- XPath evaluation and document loading (mpd_policy.c:231-260, 305-355) are libxml plumbing. A manifest is given as its selected Representation and BaseURL nodes (`Manifest`), and an unreadable file as `None`.
- The CP-ABE scheme (`bswabe_*`), AES-128-CBC, `parse_policy_lang` and the pbc random source are external libraries. They are the uninterpreted fields of `Primitives`.
  - `parsePolicy` is total: the parser's own failures are not modelled.
  - Randomness is a stream of draws, one per encryption. It is supplied by the environment, or by `seeded` under `-d`.
- `suck_file`, `spit_file`, `read_cpabe_file`, `write_cpabe_file` and `suck_stdin` live in `common.c`, which is not part of this model.
  - The container is the abstract record `(cph, len, payload)`, with an uninterpreted codec.
  - Reading a missing file dies with status 1.
  - Writes always succeed.
  - Standard input is the parameter `stdin`.
- Help and version printing, and memory freeing, are left out. Only their exit statuses are modelled.
- Buffer overruns are not replicated: strings are unbounded sequences. These are the 1024-byte policy buffer with unchecked `strcat`, the write one past the leaf buffer, and the output-name buffer of enc.c that is 4 bytes short.
- Preconditions stand in for NULL dereferences, so the model does not say what the process does in these cases:
  - a group node without children;
  - a Logical/Composition group without OperatorValue;
  - a Name/Value/Operator field or a BaseURL without a child;
  - a BaseURL whose last child is an element.
  These are `Walkable`, `OperatorValueGiven`, `FieldsReadable` and `Readable`. An element as a field's last child is modelled: its content is NULL, so the field counts as missing.
- The preconditions are stronger than the dereferences they stand for, so some inputs the C handles lie outside the model:
  - `OperatorValueGiven` asks for OperatorValue under Logical, although the C reads it there only to emit a separator (mpd_policy.c:174-179). A Logical group in which no element child is followed by two more siblings, such as a single Attribute between whitespace, compiles in the C but is excluded.
  - `Walkable` constrains every child of a group. The C never reaches the children after the first foreign element, because it exits with 1 there.
  - `RepWalkable` constrains the group child and every sibling after it.
- `malloc(0)` returning NULL for an empty node set (the `assert` then fails) is not modelled. An empty node set gives empty arrays.
- The in-place mutation `remove_spaces` performs on the document's text is not modelled. The document is freed when `parse_xml` returns, so nothing observes it.
- `xmlNodeSetContent`'s entity parsing of the new BaseURL content is not modelled: the content is taken literally.
- The 32-bit `file_len` is an unbounded `nat`.
- `Cpabe.Resize`: the bytes that `g_byte_array_set_size` appends when it lengthens a buffer are uninitialised in the library. The model fills them with zero, and no contract depends on them.
- `EncTool.RunBatch`, `EncTool.RunSingle`, `DecTool.DecScan`, `DecTool.DecSetup`, `DecTool.Decrypt`, `PolicyCompiler.RenderChild`, `PolicyCompiler.RenderFrom`, `PolicyCompiler.RenderGroup`: their own contracts state only the exit codes. What each writes or renders is stated by the lemmas about it (`BatchWritesEveryPair`, `SingleRules`, `SetupRules`, `DecryptRestores`, `InterleavedGroup`, `CompactGroup`, `GroupShape`). For `DecScan`, these lemmas are `DecProperties.PlainArguments`, `DecProperties.ScanAppend`, `DecProperties.ScanShift`, `DecProperties.OutputOverride` and `DecProperties.DanglingOutputDies`.
- `EncTool.EncScan`, `EncTool.EncSetup`, `EncTool.EncMain`: their own contracts state the exit codes, what the loop never undoes, the mode choice and the runs that write nothing. The defaults and what a whole run writes are stated by `EncProperties.SetupRules`, `EncProperties.PlainArguments`, `EncProperties.ScanAppend`, `EncProperties.XmlSelectsBatch` and `Pipeline.CommandLineRoundTrip`.
- `PolicyCompiler.Policies`: its own contract states only the count and the exit codes. The order, the skipping of nodes without a group and the exit code are stated by `PoliciesInReverse`.
- `BaseUrls.FileNames`, `BaseUrls.Renamed`: their own contracts state only the length. The contents are stated by `ParseNodesForFilesNames` and `RenamedReadsBack`.

## Findings

| source | as written | input that shows it | evidently intended | confidence | as-written member | corrected member |
|---|---|---|---|---|---|---|
| dec.c:163-164 | after writing the plaintext to `out_file`, `in_file` is unlinked whenever `-k` is absent, even when the two names are equal | `cpabe-dec PUB PRV movie` where `movie` does not end in `.cpabe`: the output name is `movie`, the plaintext is written there and then unlinked, so the run exits 0 and leaves neither the ciphertext nor the plaintext; every batch output `X_out` of `cpabe-enc -x` meets this | the usage text (dec.c:15-18) says such a file is decrypted in place, so only an input distinct from the output should be removed | high, not executed | `DecProperties.InPlaceDecryption` | `DecTool.Finish` |

=== FILE: base_url.dfy ===
/** The BaseURL renamer (`parse_nodes_for_files_names`) and the document
    entry point `parse_xml` that runs the policy compiler and the renamer
    over one parsed MPD. */
module BaseUrls {
  import opened Results
  import opened Xml
  import opened MpdNames
  import PolicyCompiler

  /** The source reads `node->last->content` without a check: the node
      needs a last child, and that child must carry content (a text node). */
  predicate Readable(n: Node) {
    n.Element? && |n.children| > 0 && n.children[|n.children| - 1].Text?
  }

  predicate AllReadable(nodes: seq<Node>) {
    forall j | 0 <= j < |nodes| :: Readable(nodes[j])
  }

  /** The original text of a readable BaseURL node. */
  function Original(n: Node): string
    requires Readable(n)
  {
    LastContent(n).value
  }

  /** The new content as the source builds it: a zeroed buffer of
      `old_len + SUFFIX_LEN` characters, the old text copied to the front
      and the suffix copied after it. */
  function SuffixBuffer(prior: string): (r: string)
    ensures r == prior + Suffix
  {
    SuffixLength();
    seq(|prior| + SuffixLen, k requires 0 <= k < |prior| + SuffixLen => if k < |prior| then prior[k] else Suffix[k - |prior|])
  }

  /** The captured names: position `k` holds the original text of node
      `|nodes| - 1 - k`, since the source walks the node set backwards. */
  function FileNames(nodes: seq<Node>): (r: seq<string>)
    requires AllReadable(nodes)
    ensures |r| == |nodes|
  {
    seq(|nodes|, k requires 0 <= k < |nodes| => Original(nodes[|nodes| - 1 - k]))
  }

  /** The rewritten node set: every node keeps its name and properties and
      holds only its original text followed by the suffix. */
  function Renamed(nodes: seq<Node>): (r: seq<Node>)
    requires AllReadable(nodes)
    ensures |r| == |nodes|
  {
    seq(|nodes|, j requires 0 <= j < |nodes| => SetContent(nodes[j], SuffixBuffer(Original(nodes[j]))))
  }

  /** `parse_nodes_for_files_names`: one pass from the last node to the
      first, recording the original text and then rewriting the node. */
  method ParseNodesForFilesNames(nodes: seq<Node>) returns (names: seq<string>, updated: seq<Node>)
    requires AllReadable(nodes)
    ensures |names| == |nodes| && |updated| == |nodes|
    ensures forall k | 0 <= k < |nodes| :: names[k] == LastContent(nodes[|nodes| - 1 - k]).value
    ensures forall j | 0 <= j < |nodes| ::
      && updated[j].Element? && updated[j].name == nodes[j].name && updated[j].props == nodes[j].props
      && updated[j].children == [Text(LastContent(nodes[j]).value + Suffix)]
    ensures names == FileNames(nodes) && updated == Renamed(nodes)
  {
    names := [];
    updated := nodes;
    var i := |nodes|;
    while i > 0
      invariant 0 <= i <= |nodes|
      invariant |names| == |nodes| - i && |updated| == |nodes|
      invariant forall k | 0 <= k < |names| :: names[k] == Original(nodes[|nodes| - 1 - k])
      invariant forall j | 0 <= j < i :: updated[j] == nodes[j]
      invariant forall j | i <= j < |nodes| :: updated[j] == SetContent(nodes[j], Original(nodes[j]) + Suffix)
    {
      i := i - 1;
      assert updated[i] == nodes[i] && nodes[i] in nodes;
      var prior := LastContent(updated[i]).value;
      names := names + [prior];
      updated := updated[i := SetContent(updated[i], SuffixBuffer(prior))];
    }
  }

  /** Reading the rewritten node back gives the captured name followed by
      the suffix, and stripping the suffix again gives the name. */
  lemma RenamedReadsBack(nodes: seq<Node>, j: nat)
    requires AllReadable(nodes)
    requires j < |nodes|
    ensures Readable(Renamed(nodes)[j])
    ensures var back := Original(Renamed(nodes)[j]);
      var name := FileNames(nodes)[|nodes| - 1 - j];
      && back == name + Suffix
      && |back| == |name| + SuffixLen
      && back[..|back| - SuffixLen] == name
  {
    SuffixLength();
    var name := FileNames(nodes)[|nodes| - 1 - j];
    assert |nodes| - 1 - (|nodes| - 1 - j) == j;
    assert name == Original(nodes[j]);
    assert (name + Suffix)[..|name|] == name;
  }

  /** The nodes an MPD selects: `Representation` elements and `BaseURL`
      elements, each in document order. */
  datatype Manifest = Manifest(representations: seq<Node>, baseUrls: seq<Node>)

  /** What `parse_xml` hands back to its caller. The rewritten nodes are
      kept for inspection; the source never writes them out. */
  datatype Extracted = Extracted(policies: seq<string>, files: seq<string>, rewritten: seq<Node>)

  predicate ManifestWalkable(m: Manifest) {
    && (forall j | 0 <= j < |m.representations| :: PolicyCompiler.RepWalkable(m.representations[j]))
    && AllReadable(m.baseUrls)
  }

  /** `parse_xml`: an unreadable document returns 1 and leaves the caller's
      arrays untouched (`Ok(None)`); otherwise the policies are compiled
      (any exit of the compiler ends the process) and then the BaseURL
      nodes are renamed. */
  function ParseXml(doc: Option<Manifest>): (r: Result<Option<Extracted>>)
    requires doc.Some? ==> ManifestWalkable(doc.value)
    ensures doc.None? ==> r == Ok(None)
    ensures r.Exit? ==> r.code == BadNode || r.code == IncompleteAttribute || r.code == BadGroupProperty
    ensures doc.Some? ==> (r.Ok? <==> PolicyCompiler.Policies(doc.value.representations).Ok?)
    ensures doc.Some? && r.Exit? ==> r.code == PolicyCompiler.Policies(doc.value.representations).code
    ensures r.Ok? && doc.Some? ==>
      && r.value.Some?
      && PolicyCompiler.Policies(doc.value.representations).Ok?
      && r.value.value.policies == PolicyCompiler.Policies(doc.value.representations).value
      && |r.value.value.files| == |doc.value.baseUrls|
      && r.value.value.files == FileNames(doc.value.baseUrls)
  {
    match doc
    case None => Ok(None)
    case Some(m) =>
      var policies :- PolicyCompiler.Policies(m.representations);
      Ok(Some(Extracted(policies, FileNames(m.baseUrls), Renamed(m.baseUrls))))
  }
}

=== FILE: cpabe.dfy ===
/** What the two command-line tools rely on but do not implement: the
    CP-ABE scheme, the symmetric cipher, the policy-language parser, the
    container file layout and the file system. The cryptography is left
    uninterpreted: it enters the model as a record of functions, and the
    properties the drivers need from it are predicates over that record. */
module Cpabe {
  import opened Results

  newtype byte = x: int | 0 <= x < 256

  type Bytes = seq<byte>

  /** Path to contents. A path absent from the map is a file that cannot
      be opened for reading. */
  type FileSystem = map<string, Bytes>

  /** The three fields `write_cpabe_file` stores and `read_cpabe_file`
      returns: the serialized ABE ciphertext, the plaintext length and the
      AES ciphertext. */
  datatype Container = Container(cph: Bytes, len: nat, payload: Bytes)

  /** The external collaborators.
      - `parsePolicy`: `parse_policy_lang`, policy text to the postfix form
        the ABE scheme consumes;
      - `abeEnc`: `bswabe_enc` after unserializing the public key; given the
        public-key file, a parsed policy and a random draw it yields the
        serialized ciphertext and the session key element, or `None` when
        the scheme reports an error;
      - `abeDec`: `bswabe_dec` after unserializing both keys and the
        ciphertext; `None` when the private key does not satisfy the policy;
      - `aesEnc`/`aesDec`: AES-128-CBC under a key derived from the element;
      - `encode`/`decode`: the container layout of `write_cpabe_file` and
        `read_cpabe_file`;
      - `seeded`: the draws the random source yields once
        `pbc_random_set_deterministic(0)` has been called. */
  datatype Primitives = Primitives(
    parsePolicy: string -> string,
    abeEnc: (Bytes, string, nat) -> Option<(Bytes, Bytes)>,
    abeDec: (Bytes, Bytes, Bytes) -> Option<Bytes>,
    aesEnc: (Bytes, Bytes) -> Bytes,
    aesDec: (Bytes, Bytes) -> Bytes,
    encode: Container -> Bytes,
    decode: Bytes -> Container,
    seeded: nat -> nat)

  /** Decrypting under the same key gives the plaintext back as a prefix:
      CBC padding may add bytes at the end, which is why the container
      records the plaintext length. */
  ghost predicate AesPadded(p: Primitives) {
    forall pt: Bytes, key: Bytes {:trigger p.aesDec(p.aesEnc(pt, key), key)} ::
      && |pt| <= |p.aesDec(p.aesEnc(pt, key), key)|
      && p.aesDec(p.aesEnc(pt, key), key)[..|pt|] == pt
  }

  /** Reading a container file gives back the fields that were written. */
  ghost predicate CodecRoundTrip(p: Primitives) {
    forall c: Container {:trigger p.decode(p.encode(c))} :: p.decode(p.encode(c)) == c
  }

  /** How a run of either tool ends: the files as the process leaves them
      (a process that dies keeps what it already wrote) and the exit
      status (0 normal, 1 `die`, or a code of the policy compiler). */
  datatype Outcome = Outcome(fs: FileSystem, status: int)

  /** `g_byte_array_set_size`: shortening drops the tail; lengthening keeps
      the buffer as a prefix and appends bytes the library leaves
      uninitialised (zero here, and no contract depends on them). */
  function Resize(b: Bytes, n: nat): (r: Bytes)
    ensures |r| == n
    ensures n <= |b| ==> r == b[..n]
    ensures |b| <= n ==> r[..|b|] == b
  {
    if n <= |b| then b[..n] else b + seq(n - |b|, _ => 0 as byte)
  }

  /** The container both tools agree on for one plaintext: the ABE
      ciphertext, the plaintext's length and its AES encryption. */
  function Sealed(p: Primitives, cph: Bytes, key: Bytes, plaintext: Bytes): (r: Bytes)
  {
    p.encode(Container(cph, |plaintext|, p.aesEnc(plaintext, key)))
  }

  /** Opening what `Sealed` produced with the same key restores the
      plaintext exactly: the length field cuts the padding off. */
  lemma OpenSealed(p: Primitives, cph: Bytes, key: Bytes, plaintext: Bytes)
    requires AesPadded(p) && CodecRoundTrip(p)
    ensures var c := p.decode(Sealed(p, cph, key, plaintext));
      && c.cph == cph && c.len == |plaintext|
      && Resize(p.aesDec(c.payload, key), c.len) == plaintext
  {
    var c := Container(cph, |plaintext|, p.aesEnc(plaintext, key));
    assert p.decode(p.encode(c)) == c;
    var padded := p.aesDec(p.aesEnc(plaintext, key), key);
    assert |plaintext| <= |padded| && padded[..|plaintext|] == plaintext;
  }
}

=== FILE: dec_properties.dfy ===
/** What `cpabe-dec` promises: exactly three plain arguments, `-o`
    overriding the derived name, the keep guard, decryption restoring the
    plaintext, and a failed decryption writing nothing. */
module DecProperties {
  import opened Results
  import opened Cpabe
  import opened DecTool

  /** Stripping the extension inverts appending it, and a name that does
      not end in `.cpabe` (or is nothing but the extension) is kept. */
  lemma OutputNameRules(input: string)
    ensures |input| > 0 ==> DecOutputName(input + CpabeExtension) == input
    ensures DecOutputName(input) != input <==>
      |input| > |CpabeExtension| && input[|input| - |CpabeExtension|..] == CpabeExtension
  {
    var named := input + CpabeExtension;
    assert named[|named| - |CpabeExtension|..] == CpabeExtension;
    assert named[..|named| - |CpabeExtension|] == input;
  }

  /** The post-loop rules: a missing file argument dies, `-o` overrides the
      derived name, and `keep` is refused exactly when the output is the
      input. */
  lemma SetupRules(st: DecArgs)
    ensures var r := DecSetup(st);
      && (st.pub.None? || st.prv.None? || st.input.None? ==> r == Exit(1))
      && (st.pub.Some? && st.prv.Some? && st.input.Some? ==>
            var out := if st.out.Some? then st.out.value else DecOutputName(st.input.value);
            && (r.Exit? <==> st.keep && st.input.value == out)
            && (r.Ok? ==> r.value == DecConfig(st.pub.value, st.prv.value, st.input.value, out, st.keep)))
      && (r.Ok? ==> !(r.value.keep && r.value.input == r.value.out))
  {
  }

  /** Plain arguments: exactly three are accepted, as public key, private
      key and input, with the output derived from the input. */
  lemma PlainArguments(args: seq<string>)
    requires forall k | 0 <= k < |args| :: !IsDecOption(args[k])
    ensures DecParse(args).Ok? <==> |args| == 3
    ensures DecParse(args).Exit? ==> DecParse(args).code == 1
    ensures |args| == 3 ==> DecParse(args) == Ok(DecConfig(args[0], args[1], args[2], DecOutputName(args[2]), false))
  {
    if |args| >= 1 {
      var s1 := NoArgs.(pub := Some(args[0]));
      assert DecScan(args, 0, NoArgs) == DecScan(args, 1, s1);
      if |args| >= 2 {
        var s2 := s1.(prv := Some(args[1]));
        assert DecScan(args, 1, s1) == DecScan(args, 2, s2);
        if |args| >= 3 {
          var s3 := s2.(input := Some(args[2]));
          assert DecScan(args, 2, s2) == DecScan(args, 3, s3);
          if |args| >= 4 {
            assert DecScan(args, 3, s3) == Exit(1);
          }
        }
      }
    }
  }

  /** `-o FILE` before the three plain arguments replaces the derived name;
      with `-k` as well, naming the input as output is refused. */
  lemma OutputOverride(out: string, pub: string, prv: string, input: string)
    requires !IsDecOption(out) && !IsDecOption(pub) && !IsDecOption(prv) && !IsDecOption(input)
    ensures DecParse(["-o", out, pub, prv, input]) == Ok(DecConfig(pub, prv, input, out, false))
    ensures DecParse(["-k", "-o", out, pub, prv, input]).Exit? <==> out == input
  {
    var args := ["-o", out, pub, prv, input];
    var s := NoArgs.(out := Some(out));
    assert DecScan(args, 0, NoArgs) == DecScan(args, 2, s);
    assert DecScan(args, 2, s) == DecScan(args, 3, s.(pub := Some(pub)));
    assert DecScan(args, 3, s.(pub := Some(pub))) == DecScan(args, 4, s.(pub := Some(pub), prv := Some(prv)));
    assert DecScan(args, 4, s.(pub := Some(pub), prv := Some(prv)))
        == DecScan(args, 5, s.(pub := Some(pub), prv := Some(prv), input := Some(input)));
    var kargs := ["-k", "-o", out, pub, prv, input];
    var k := NoArgs.(keep := true);
    assert DecScan(kargs, 0, NoArgs) == DecScan(kargs, 1, k);
    assert DecScan(kargs, 1, k) == DecScan(kargs, 3, k.(out := Some(out)));
    assert DecScan(kargs, 3, k.(out := Some(out))) == DecScan(kargs, 4, k.(out := Some(out), pub := Some(pub)));
    assert DecScan(kargs, 4, k.(out := Some(out), pub := Some(pub)))
        == DecScan(kargs, 5, k.(out := Some(out), pub := Some(pub), prv := Some(prv)));
    assert DecScan(kargs, 5, k.(out := Some(out), pub := Some(pub), prv := Some(prv)))
        == DecScan(kargs, 6, k.(out := Some(out), pub := Some(pub), prv := Some(prv), input := Some(input)));
  }

  /** Scanning `args + rest` from `|args| + j` is scanning `rest` from `j`. */
  lemma {:induction false} ScanShift(args: seq<string>, rest: seq<string>, j: nat, st: DecArgs)
    requires j <= |rest|
    ensures DecScan(args + rest, |args| + j, st) == DecScan(rest, j, st)
    decreases |rest| - j
  {
    if j < |rest| {
      var all := args + rest;
      assert all[|args| + j] == rest[j];
      assert NextArg(all, |args| + j) == NextArg(rest, j) by {
        if j + 1 < |rest| {
          assert all[|args| + j + 1] == rest[j + 1];
        }
      }
      var step := DecStep(rest[j], NextArg(rest, j), st);
      if step.Ok? {
        ScanShift(args, rest, j + step.value.1, step.value.0);
      }
    }
  }

  /** Scanning a prefix that ends normally and then the rest is scanning
      the rest from the prefix's globals. */
  lemma {:induction false} ScanAppend(args: seq<string>, rest: seq<string>, i: nat, st: DecArgs)
    requires i <= |args|
    requires DecScan(args, i, st).Ok?
    ensures DecScan(args + rest, i, st) == DecScan(rest, 0, DecScan(args, i, st).value)
    decreases |args| - i
  {
    if i == |args| {
      ScanShift(args, rest, 0, st);
    } else {
      var all := args + rest;
      assert all[i] == args[i];
      var step := DecStep(args[i], NextArg(args, i), st);
      assert step.Ok?;
      assert DecStep(all[i], NextArg(all, i), st) == step by {
        if i + 1 < |args| {
          assert all[i + 1] == args[i + 1];
        }
      }
      ScanAppend(args, rest, i + step.value.1, step.value.0);
    }
  }

  /** `-o` as the last argument dies with status 1 once the arguments
      before it have been accepted by the loop. */
  lemma DanglingOutputDies(args: seq<string>, flag: string)
    requires flag == "-o" || flag == "--output"
    requires DecScan(args, 0, NoArgs).Ok?
    ensures DecParse(args + [flag]) == Exit(1)
  {
    ScanAppend(args, [flag], 0, NoArgs);
  }

  /** A file sealed under a session key the private key recovers decrypts
      to the original plaintext at the output path; nothing else changes. */
  lemma DecryptRestores(p: Primitives, cfg: DecConfig, fs: FileSystem, cph: Bytes, key: Bytes, plaintext: Bytes)
    requires AesPadded(p) && CodecRoundTrip(p)
    requires cfg.pub in fs && cfg.prv in fs && cfg.input in fs
    requires fs[cfg.input] == Sealed(p, cph, key, plaintext)
    requires p.abeDec(fs[cfg.pub], fs[cfg.prv], cph) == Some(key)
    ensures Decrypt(p, cfg, fs).Ok?
    ensures Decrypt(p, cfg, fs).value == fs[cfg.out := plaintext]
  {
    OpenSealed(p, cph, key, plaintext);
  }

  /** A key that does not open the ciphertext, or a missing file, ends the
      run with status 1 and no file written or removed. */
  lemma FailedDecryptionWritesNothing(p: Primitives, args: seq<string>, fs: FileSystem)
    requires DecParse(args).Ok?
    requires var cfg := DecParse(args).value;
      || cfg.pub !in fs || cfg.prv !in fs || cfg.input !in fs
      || p.abeDec(fs[cfg.pub], fs[cfg.prv], p.decode(fs[cfg.input]).cph).None?
    ensures DecMain(p, args, fs) == Outcome(fs, 1)
    ensures DecMainAsWritten(p, args, fs) == Outcome(fs, 1)
  {
  }

  /** The two finishing steps agree unless the file is decrypted in place
      without `-k`. */
  lemma FinishAgrees(cfg: DecConfig, fs: FileSystem)
    requires cfg.keep || cfg.input != cfg.out
    ensures Finish(cfg, fs) == FinishAsWritten(cfg, fs)
  {
  }

  /** As written, decrypting a file in place without `-k` writes the
      plaintext over the input and then removes that path, so the run ends
      with status 0 and neither the ciphertext nor the plaintext. With the
      corrected last step the plaintext is left at the input's name. */
  lemma InPlaceDecryption(p: Primitives, pub: string, prv: string, input: string, fs: FileSystem,
                          cph: Bytes, key: Bytes, plaintext: Bytes)
    requires AesPadded(p) && CodecRoundTrip(p)
    requires !IsDecOption(pub) && !IsDecOption(prv) && !IsDecOption(input)
    requires DecOutputName(input) == input
    requires pub in fs && prv in fs && input in fs && pub != input && prv != input
    requires fs[input] == Sealed(p, cph, key, plaintext)
    requires p.abeDec(fs[pub], fs[prv], cph) == Some(key)
    ensures DecMainAsWritten(p, [pub, prv, input], fs) == Outcome(fs - {input}, 0)
    ensures DecMain(p, [pub, prv, input], fs) == Outcome(fs[input := plaintext], 0)
  {
    PlainArguments([pub, prv, input]);
    var cfg := DecConfig(pub, prv, input, input, false);
    DecryptRestores(p, cfg, fs, cph, key, plaintext);
    assert fs[input := plaintext] - {input} == fs - {input};
  }
}

=== FILE: dec_tool.dfy ===
/** `cpabe-dec`: the option loop, the derivation of the output name, the
    keep guard, and the decrypt / truncate / write / unlink sequence. */
module DecTool {
  import opened Results
  import opened Cpabe

  datatype DecArgs = DecArgs(
    pub: Option<string>,
    prv: Option<string>,
    input: Option<string>,
    out: Option<string>,
    keep: bool,
    deterministic: bool)

  const NoArgs := DecArgs(None, None, None, None, false, false)

  datatype DecConfig = DecConfig(pub: string, prv: string, input: string, out: string, keep: bool)

  const CpabeExtension := ".cpabe"

  /** What an argument of the loop is: one of the options, each with its
      short and its long spelling, or a plain argument. */
  datatype DecFlag = Help | Version | Keep | Output | Deterministic | Plain

  function DecFlagOf(a: string): DecFlag {
    if a == "-h" || a == "--help" then Help
    else if a == "-v" || a == "--version" then Version
    else if a == "-k" || a == "--keep-input-file" then Keep
    else if a == "-o" || a == "--output" then Output
    else if a == "-d" || a == "--deterministic" then Deterministic
    else Plain
  }

  predicate IsDecOption(a: string) {
    DecFlagOf(a) != Plain
  }

  /** One turn of the loop over the arguments after the program name:
      the globals after argument `a` and how many arguments the turn used.
      Help and version exit with 0, `die` with 1, and the first three plain
      arguments are the public key, the private key and the input. */
  function DecStep(a: string, next: Option<string>, st: DecArgs): (r: Result<(DecArgs, nat)>)
    ensures r.Exit? ==> r.code == 0 || r.code == 1
    ensures r.Ok? ==> (r.value.1 == 2 <==> DecFlagOf(a) == Output)
    ensures r.Ok? ==> (r.value.1 == 1 || r.value.1 == 2)
    ensures r.Ok? && next.None? ==> r.value.1 == 1
    ensures DecFlagOf(a) == Help || DecFlagOf(a) == Version ==> r == Exit(0)
    ensures DecFlagOf(a) == Keep ==> r == Ok((st.(keep := true), 1))
    ensures DecFlagOf(a) == Deterministic ==> r == Ok((st.(deterministic := true), 1))
    ensures DecFlagOf(a) == Output ==> r == if next.None? then Exit(1) else Ok((st.(out := next), 2))
    ensures DecFlagOf(a) == Plain ==> r == PlainStep(a, st)
  {
    match DecFlagOf(a)
    case Help => Exit(0)
    case Version => Exit(0)
    case Keep => Ok((st.(keep := true), 1))
    case Output =>
      (match next
       case None => Exit(1)
       case Some(file) => Ok((st.(out := Some(file)), 2)))
    case Deterministic => Ok((st.(deterministic := true), 1))
    case Plain => PlainStep(a, st)
  }

  /** A plain argument fills the first free slot of public key, private
      key and input, and a fourth one dies. */
  function PlainStep(a: string, st: DecArgs): (r: Result<(DecArgs, nat)>)
    ensures r.Ok? <==> st.pub.None? || st.prv.None? || st.input.None?
    ensures r.Exit? ==> r.code == 1
    ensures st.pub.None? ==> r == Ok((st.(pub := Some(a)), 1))
    ensures st.pub.Some? && st.prv.None? ==> r == Ok((st.(prv := Some(a)), 1))
    ensures st.pub.Some? && st.prv.Some? && st.input.None? ==> r == Ok((st.(input := Some(a)), 1))
  {
    if st.pub.None? then Ok((st.(pub := Some(a)), 1))
    else if st.prv.None? then Ok((st.(prv := Some(a)), 1))
    else if st.input.None? then Ok((st.(input := Some(a)), 1))
    else Exit(1)
  }

  /** The argument after position `i`, if there is one. */
  function NextArg(args: seq<string>, i: nat): Option<string> {
    if i + 1 < |args| then Some(args[i + 1]) else None
  }

  /** The loop from position `i` with the globals `st`. */
  function DecScan(args: seq<string>, i: nat, st: DecArgs): (r: Result<DecArgs>)
    requires i <= |args|
    ensures r.Exit? ==> r.code == 0 || r.code == 1
    decreases |args| - i
  {
    if i == |args| then Ok(st)
    else
      var step :- DecStep(args[i], NextArg(args, i), st);
      DecScan(args, i + step.1, step.0)
  }

  /** The default output: the input without a trailing `.cpabe` when the
      name is longer than the extension, otherwise the input itself. */
  function DecOutputName(input: string): (r: string)
    ensures |r| <= |input| && r == input[..|r|]
    ensures r != input <==>
      |input| > |CpabeExtension| && input[|input| - |CpabeExtension|..] == CpabeExtension
    ensures r != input ==> r + CpabeExtension == input && |r| > 0
  {
    if |input| > |CpabeExtension| && input[|input| - |CpabeExtension|..] == CpabeExtension
    then input[..|input| - |CpabeExtension|]
    else input
  }

  /** The checks after the loop: all three files are required, the output
      defaults to `DecOutputName`, and keeping the input is refused when
      the output would overwrite it. */
  function DecSetup(st: DecArgs): (r: Result<DecConfig>)
    ensures r.Exit? ==> r.code == 1
  {
    if st.pub.None? || st.prv.None? || st.input.None? then Exit(1)
    else
      var out := if st.out.Some? then st.out.value else DecOutputName(st.input.value);
      if st.keep && st.input.value == out then Exit(1)
      else Ok(DecConfig(st.pub.value, st.prv.value, st.input.value, out, st.keep))
  }

  function DecParse(args: seq<string>): Result<DecConfig> {
    var st :- DecScan(args, 0, NoArgs);
    DecSetup(st)
  }

  /** Reading both keys and the container, recovering the session key and
      writing the plaintext cut to the recorded length. An unreadable file
      or a key that does not satisfy the policy dies before anything is
      written. */
  function Decrypt(p: Primitives, cfg: DecConfig, fs: FileSystem): (r: Result<FileSystem>)
    ensures r.Exit? ==> r.code == 1
    ensures r.Ok? ==> r.value.Keys == fs.Keys + {cfg.out}
  {
    if cfg.pub !in fs || cfg.prv !in fs || cfg.input !in fs then Exit(1)
    else
      var c := p.decode(fs[cfg.input]);
      match p.abeDec(fs[cfg.pub], fs[cfg.prv], c.cph)
      case None => Exit(1)
      case Some(key) => Ok(fs[cfg.out := Resize(p.aesDec(c.payload, key), c.len)])
  }

  /** The last step as the source has it: the input is removed unless
      `keep` was given, even when the output was just written over it. */
  function FinishAsWritten(cfg: DecConfig, fs: FileSystem): (r: FileSystem)
    ensures r.Keys == if cfg.keep then fs.Keys else fs.Keys - {cfg.input}
    ensures forall f | f in r :: r[f] == fs[f]
  {
    if !cfg.keep then fs - {cfg.input} else fs
  }

  /** The last step as the usage text describes it: a file decrypted in
      place is replaced by its plaintext, so only a distinct input is
      removed. */
  function Finish(cfg: DecConfig, fs: FileSystem): (r: FileSystem)
    ensures cfg.out in fs ==> cfg.out in r && r[cfg.out] == fs[cfg.out]
    ensures r.Keys == if !cfg.keep && cfg.input != cfg.out then fs.Keys - {cfg.input} else fs.Keys
    ensures forall f | f in r :: r[f] == fs[f]
  {
    if !cfg.keep && cfg.input != cfg.out then fs - {cfg.input} else fs
  }

  /** A run of `cpabe-dec` exactly as the source behaves. */
  function DecMainAsWritten(p: Primitives, args: seq<string>, fs: FileSystem): (r: Outcome)
    ensures r.status != 0 ==> r.fs == fs
  {
    match DecParse(args)
    case Exit(code) => Outcome(fs, code)
    case Ok(cfg) =>
      match Decrypt(p, cfg, fs)
      case Exit(code) => Outcome(fs, code)
      case Ok(written) => Outcome(FinishAsWritten(cfg, written), 0)
  }

  /** A run of `cpabe-dec` with in-place decryption keeping its result. */
  function DecMain(p: Primitives, args: seq<string>, fs: FileSystem): (r: Outcome)
    ensures r.status != 0 ==> r.fs == fs
  {
    match DecParse(args)
    case Exit(code) => Outcome(fs, code)
    case Ok(cfg) =>
      match Decrypt(p, cfg, fs)
      case Exit(code) => Outcome(fs, code)
      case Ok(written) => Outcome(Finish(cfg, written), 0)
  }
}

=== FILE: enc_properties.dfy ===
/** What `cpabe-enc` promises: the defaults after the option loop, the
    pairing of policies with files in batch mode, the unlink rule of
    single mode and the handling of trailing options. */
module EncProperties {
  import opened Results
  import opened MpdNames
  import opened Cpabe
  import opened BaseUrls
  import opened EncTool

  /** The post-loop rules: which argument sets die, when batch mode is
      chosen, and the defaults of single mode. */
  lemma SetupRules(p: Primitives, stdin: string, st: EncArgs)
    ensures var r := EncSetup(p, stdin, st);
      && (r.Exit? <==> st.pub.None? || (st.input.None? && st.xml.None?))
      && (r.Exit? ==> r.code == 1)
      && (r.Ok? ==> r.value.pub == st.pub.value && r.value.deterministic == st.deterministic)
      && (r.Ok? ==> (r.value.plan.Batch? <==> st.xml.Some?))
      && (r.Ok? && st.xml.Some? ==>
            r.value.plan == Batch(st.xml.value.policies, st.xml.value.files))
      && (r.Ok? && st.xml.None? ==>
            && r.value.plan.input == st.input.value
            && r.value.plan.keep == st.keep
            && r.value.plan.out == (if st.out.Some? then st.out.value else st.input.value + ".cpabe")
            && r.value.plan.policy == (if st.policy.Some? then st.policy.value else p.parsePolicy(stdin)))
  {
  }

  /** Running pairs `i` to `n` only looks at the first `n` policies and
      files. */
  lemma {:induction false} BatchReadsPrefix(p: Primitives, pubKey: Bytes, policies: seq<string>, files: seq<string>,
                                            policies2: seq<string>, files2: seq<string>,
                                            coins: nat -> nat, i: nat, n: nat, fs: FileSystem)
    requires i <= n <= |policies| && n <= |files| && n <= |policies2| && n <= |files2|
    requires policies[..n] == policies2[..n] && files[..n] == files2[..n]
    ensures RunBatch(p, pubKey, policies, files, coins, i, n, fs) == RunBatch(p, pubKey, policies2, files2, coins, i, n, fs)
    decreases n - i
  {
    if i < n {
      assert policies[i] == policies[..n][i] && policies2[i] == policies2[..n][i];
      assert files[i] == files[..n][i] && files2[i] == files2[..n][i];
      match p.abeEnc(pubKey, p.parsePolicy(policies[i]), coins(i))
      case None =>
      case Some((cph, key)) =>
        if files[i] in fs {
          BatchReadsPrefix(p, pubKey, policies, files, policies2, files2, coins, i + 1, n,
                           fs[files[i] + Suffix := Sealed(p, cph, key, fs[files[i]])]);
        }
    }
  }

  /** Batch mode encrypts `min(policies, files)` pairs: surplus policies
      or surplus BaseURLs are ignored. */
  lemma BatchIgnoresSurplus(p: Primitives, pubKey: Bytes, policies: seq<string>, files: seq<string>,
                            coins: nat -> nat, fs: FileSystem)
    ensures var n := Min(|policies|, |files|);
      RunBatch(p, pubKey, policies, files, coins, 0, n, fs)
        == RunBatch(p, pubKey, policies[..n], files[..n], coins, 0, n, fs)
  {
    var n := Min(|policies|, |files|);
    BatchReadsPrefix(p, pubKey, policies, files, policies[..n], files[..n], coins, 0, n, fs);
  }

  /** The output name of pair `j`. */
  function OutputOf(files: seq<string>, j: nat): string
    requires j < |files|
  {
    files[j] + Suffix
  }

  /** Batch mode removes nothing, and a file that is not the output of one
      of the pairs run keeps its contents. */
  lemma {:induction false} BatchKeepsOthers(p: Primitives, pubKey: Bytes, policies: seq<string>, files: seq<string>,
                                            coins: nat -> nat, i: nat, n: nat, fs: FileSystem)
    requires i <= n <= |policies| && n <= |files|
    ensures var r := RunBatch(p, pubKey, policies, files, coins, i, n, fs);
      && fs.Keys <= r.fs.Keys
      && (forall path | path in r.fs && path !in fs :: exists j | i <= j < n :: path == OutputOf(files, j))
      && (forall path | path in fs && (forall j | i <= j < n :: path != OutputOf(files, j)) :: r.fs[path] == fs[path])
    decreases n - i
  {
    if i < n {
      match p.abeEnc(pubKey, p.parsePolicy(policies[i]), coins(i))
      case None =>
      case Some((cph, key)) =>
        if files[i] in fs {
          var next := fs[files[i] + Suffix := Sealed(p, cph, key, fs[files[i]])];
          BatchKeepsOthers(p, pubKey, policies, files, coins, i + 1, n, next);
          var r := RunBatch(p, pubKey, policies, files, coins, i, n, fs);
          assert r == RunBatch(p, pubKey, policies, files, coins, i + 1, n, next);
          forall path | path in r.fs && path !in fs
            ensures exists j | i <= j < n :: path == OutputOf(files, j)
          {
            if path !in next {
              var j :| i + 1 <= j < n && path == OutputOf(files, j);
            } else {
              assert path == OutputOf(files, i);
            }
          }
          forall path | path in fs && (forall j | i <= j < n :: path != OutputOf(files, j))
            ensures r.fs[path] == fs[path]
          {
            assert path != OutputOf(files, i);
          }
        }
    }
  }

  /** Running pairs `i` to `n` is running `i` to `k` and, if that did not
      die, `k` to `n` on the files it left. */
  lemma {:induction false} BatchSplit(p: Primitives, pubKey: Bytes, policies: seq<string>, files: seq<string>,
                                      coins: nat -> nat, i: nat, k: nat, n: nat, fs: FileSystem)
    requires i <= k <= n <= |policies| && n <= |files|
    ensures var first := RunBatch(p, pubKey, policies, files, coins, i, k, fs);
      RunBatch(p, pubKey, policies, files, coins, i, n, fs)
        == if first.status == 0 then RunBatch(p, pubKey, policies, files, coins, k, n, first.fs) else first
    decreases k - i
  {
    if i < k {
      match p.abeEnc(pubKey, p.parsePolicy(policies[i]), coins(i))
      case None =>
      case Some((cph, key)) =>
        if files[i] in fs {
          BatchSplit(p, pubKey, policies, files, coins, i + 1, k, n,
                     fs[files[i] + Suffix := Sealed(p, cph, key, fs[files[i]])]);
        }
    }
  }

  /** A scheme error at pair `k` ends the run with status 1: the outputs of
      the pairs before `k` stay and nothing later is written. */
  lemma BatchStopsAtSchemeError(p: Primitives, pubKey: Bytes, policies: seq<string>, files: seq<string>,
                                coins: nat -> nat, k: nat, n: nat, fs: FileSystem)
    requires k < n <= |policies| && n <= |files|
    requires RunBatch(p, pubKey, policies, files, coins, 0, k, fs).status == 0
    requires p.abeEnc(pubKey, p.parsePolicy(policies[k]), coins(k)).None?
    ensures RunBatch(p, pubKey, policies, files, coins, 0, n, fs)
      == Outcome(RunBatch(p, pubKey, policies, files, coins, 0, k, fs).fs, 1)
  {
    BatchSplit(p, pubKey, policies, files, coins, 0, k, n, fs);
  }

  /** The pairs' files are distinct and none of them is another pair's
      output, so no pair reads or overwrites another pair's result. */
  predicate IndependentPairs(files: seq<string>, i: nat, n: nat)
    requires n <= |files|
  {
    forall j, k | i <= j < n && i <= k < n ::
      && (j != k ==> files[j] != files[k])
      && files[j] != OutputOf(files, k)
  }

  /** Every pair from `i` on succeeds in the scheme and its file exists. */
  predicate PairsSucceed(p: Primitives, pubKey: Bytes, policies: seq<string>, files: seq<string>,
                         coins: nat -> nat, i: nat, n: nat, fs: FileSystem)
    requires n <= |policies| && n <= |files|
  {
    forall j | i <= j < n ::
      p.abeEnc(pubKey, p.parsePolicy(policies[j]), coins(j)).Some? && files[j] in fs
  }

  /** Distinct files have distinct outputs. */
  lemma DistinctOutputs(files: seq<string>, j: nat, k: nat)
    requires j < |files| && k < |files| && files[j] != files[k]
    ensures OutputOf(files, j) != OutputOf(files, k)
  {
    assert OutputOf(files, j)[..|files[j]|] == files[j];
    assert OutputOf(files, k)[..|files[k]|] == files[k];
  }

  /** The container pair `j` writes for `plaintext` when the scheme
      accepts its policy. */
  function PairSealed(p: Primitives, pubKey: Bytes, policies: seq<string>, coins: nat -> nat, j: nat, plaintext: Bytes): Bytes
    requires j < |policies|
    requires p.abeEnc(pubKey, p.parsePolicy(policies[j]), coins(j)).Some?
  {
    var (cph, key) := p.abeEnc(pubKey, p.parsePolicy(policies[j]), coins(j)).value;
    Sealed(p, cph, key, plaintext)
  }

  /** With independent pairs that all succeed, the run ends normally and
      the output of pair `j` is the container of `files[j]` under the
      ciphertext and key of `policies[j]`. */
  lemma {:induction false} BatchWritesEveryPair(p: Primitives, pubKey: Bytes, policies: seq<string>, files: seq<string>,
                                                coins: nat -> nat, i: nat, n: nat, fs: FileSystem)
    requires i <= n <= |policies| && n <= |files|
    requires IndependentPairs(files, i, n)
    requires PairsSucceed(p, pubKey, policies, files, coins, i, n, fs)
    ensures var r := RunBatch(p, pubKey, policies, files, coins, i, n, fs);
      && r.status == 0
      && forall j | i <= j < n ::
           OutputOf(files, j) in r.fs && r.fs[OutputOf(files, j)] == PairSealed(p, pubKey, policies, coins, j, fs[files[j]])
    decreases n - i
  {
    if i < n {
      var next := fs[OutputOf(files, i) := PairSealed(p, pubKey, policies, coins, i, fs[files[i]])];
      var r := RunBatch(p, pubKey, policies, files, coins, i + 1, n, next);
      assert RunBatch(p, pubKey, policies, files, coins, i, n, fs) == r;
      forall j | i + 1 <= j < n
        ensures files[j] in next && next[files[j]] == fs[files[j]]
      {
        assert files[j] != OutputOf(files, i);
      }
      BatchWritesEveryPair(p, pubKey, policies, files, coins, i + 1, n, next);
      assert OutputOf(files, i) in r.fs && r.fs[OutputOf(files, i)] == next[OutputOf(files, i)] by {
        BatchKeepsOthers(p, pubKey, policies, files, coins, i + 1, n, next);
        forall j | i + 1 <= j < n
          ensures OutputOf(files, i) != OutputOf(files, j)
        {
          DistinctOutputs(files, i, j);
        }
      }
    }
  }

  /** Single mode: a scheme error or an unreadable input leaves the files
      as they were; otherwise the output holds the container, the input is
      gone unless `keep`, and every other file is untouched. When `out`
      names the input and `keep` is not given, the container is removed
      together with the input. */
  lemma SingleRules(p: Primitives, pubKey: Bytes, input: string, out: string, keep: bool,
                    policy: string, coin: nat, fs: FileSystem)
    ensures var r := RunSingle(p, pubKey, input, out, keep, policy, coin, fs);
      && (p.abeEnc(pubKey, policy, coin).None? || input !in fs ==> r == Outcome(fs, 1))
      && (p.abeEnc(pubKey, policy, coin).Some? && input in fs ==>
            var (cph, key) := p.abeEnc(pubKey, policy, coin).value;
            && r.status == 0
            && (input in r.fs <==> keep)
            && (out in r.fs <==> keep || out != input)
            && (out in r.fs ==> r.fs[out] == Sealed(p, cph, key, fs[input]))
            && (forall path | path != input && path != out :: (path in r.fs <==> path in fs))
            && (forall path | path in fs && path != input && path != out :: r.fs[path] == fs[path]))
  {
  }

  /** Under `-d` the run does not depend on the environment's randomness. */
  lemma DeterministicIgnoresEnvironment(p: Primitives, docs: Documents, stdin: string, env1: nat -> nat, env2: nat -> nat,
                                        args: seq<string>, fs: FileSystem)
    requires DocumentsWalkable(docs)
    requires EncParse(p, docs, stdin, args).Ok? && EncParse(p, docs, stdin, args).value.deterministic
    ensures EncMain(p, docs, stdin, env1, args, fs) == EncMain(p, docs, stdin, env2, args, fs)
  {
  }

  /** A turn that uses one argument does not look at the next one. */
  lemma StepIgnoresNext(p: Primitives, docs: Documents, a: string, next1: Option<string>, next2: Option<string>, st: EncArgs)
    requires DocumentsWalkable(docs)
    requires a !in ["-o", "--output", "-x", "--xml-input"]
    ensures EncStep(p, docs, a, next1, st) == EncStep(p, docs, a, next2, st)
  {
  }

  /** Scanning a prefix that ends normally and then the rest is scanning
      the rest from the prefix's globals: no option consumes across the
      boundary. */
  lemma {:induction false} ScanAppend(p: Primitives, docs: Documents, args: seq<string>, rest: seq<string>, i: nat, st: EncArgs)
    requires DocumentsWalkable(docs)
    requires i <= |args|
    requires EncScan(p, docs, args, i, st).Ok?
    ensures EncScan(p, docs, args + rest, i, st) == EncScan(p, docs, rest, 0, EncScan(p, docs, args, i, st).value)
    decreases |args| - i
  {
    if i == |args| {
      ScanShift(p, docs, args, rest, 0, st);
    } else {
      var all := args + rest;
      assert all[i] == args[i];
      var step := EncStep(p, docs, args[i], NextArg(args, i), st);
      assert step.Ok?;
      assert EncStep(p, docs, all[i], NextArg(all, i), st) == step by {
        if i + 1 < |args| {
          assert all[i + 1] == args[i + 1];
        } else {
          StepIgnoresNext(p, docs, args[i], NextArg(all, i), NextArg(args, i), st);
        }
      }
      ScanAppend(p, docs, args, rest, i + step.value.1, step.value.0);
    }
  }

  /** Position `|args| + j` of `args + rest` is position `j` of `rest`,
      with the same following argument. */
  lemma ShiftedArgument(args: seq<string>, rest: seq<string>, j: nat)
    requires j < |rest|
    ensures (args + rest)[|args| + j] == rest[j]
    ensures NextArg(args + rest, |args| + j) == NextArg(rest, j)
  {
    if j + 1 < |rest| {
      assert (args + rest)[|args| + j + 1] == rest[j + 1];
    }
  }

  /** Scanning `args + rest` from `|args| + j` is scanning `rest` from `j`. */
  lemma {:induction false} ScanShift(p: Primitives, docs: Documents, args: seq<string>, rest: seq<string>, j: nat, st: EncArgs)
    requires DocumentsWalkable(docs)
    requires j <= |rest|
    ensures EncScan(p, docs, args + rest, |args| + j, st) == EncScan(p, docs, rest, j, st)
    decreases |rest| - j
  {
    if j < |rest| {
      ShiftedArgument(args, rest, j);
      var step := EncStep(p, docs, rest[j], NextArg(rest, j), st);
      if step.Ok? {
        ScanShift(p, docs, args, rest, j + step.value.1, step.value.0);
      }
    }
  }

  /** `-o` or `-x` as the last argument dies with status 1, whatever came
      before, as long as the arguments before it did not already end the
      run. */
  lemma DanglingOptionDies(p: Primitives, docs: Documents, stdin: string, args: seq<string>, flag: string)
    requires DocumentsWalkable(docs)
    requires flag in ["-o", "--output", "-x", "--xml-input"]
    requires EncScan(p, docs, args, 0, NoArgs).Ok?
    ensures EncParse(p, docs, stdin, args + [flag]) == Exit(1)
  {
    ScanAppend(p, docs, args, [flag], 0, NoArgs);
  }

  /** Three plain arguments are the public key, the file and the policy;
      two leave the policy to standard input; a fourth, or fewer than two,
      dies. */
  lemma PlainArguments(p: Primitives, docs: Documents, stdin: string, args: seq<string>)
    requires DocumentsWalkable(docs)
    requires forall k | 0 <= k < |args| :: !IsEncOption(args[k])
    ensures EncParse(p, docs, stdin, args).Ok? <==> 2 <= |args| <= 3
    ensures EncParse(p, docs, stdin, args).Exit? ==> EncParse(p, docs, stdin, args).code == 1
    ensures 2 <= |args| <= 3 ==>
      EncParse(p, docs, stdin, args)
        == Ok(EncConfig(args[0], false,
                        Single(args[1], args[1] + ".cpabe", false,
                               p.parsePolicy(if |args| == 3 then args[2] else stdin))))
  {
    if |args| >= 1 {
      var s1 := NoArgs.(pub := Some(args[0]));
      assert EncScan(p, docs, args, 0, NoArgs) == EncScan(p, docs, args, 1, s1);
      if |args| >= 2 {
        var s2 := s1.(input := Some(args[1]));
        assert EncScan(p, docs, args, 1, s1) == EncScan(p, docs, args, 2, s2);
        if |args| >= 3 {
          var s3 := s2.(policy := Some(p.parsePolicy(args[2])));
          assert EncScan(p, docs, args, 2, s2) == EncScan(p, docs, args, 3, s3);
          if |args| >= 4 {
            assert EncScan(p, docs, args, 3, s3) == Exit(1);
          }
        }
      }
    }
  }

  /** `-k` keeps the input and `-o FILE` replaces the derived output name;
      the file after `-o` is taken whatever it looks like. */
  lemma KeepAndOutputOptions(p: Primitives, docs: Documents, stdin: string, out: string,
                             pub: string, input: string, pol: string)
    requires DocumentsWalkable(docs)
    requires !IsEncOption(pub) && !IsEncOption(input) && !IsEncOption(pol)
    ensures EncParse(p, docs, stdin, ["-k", "-o", out, pub, input, pol])
      == Ok(EncConfig(pub, false, Single(input, out, true, p.parsePolicy(pol))))
    ensures EncParse(p, docs, stdin, ["-o", out, pub, input])
      == Ok(EncConfig(pub, false, Single(input, out, false, p.parsePolicy(stdin))))
  {
    var args := ["-k", "-o", out, pub, input, pol];
    var s1 := NoArgs.(keep := true);
    var s2 := s1.(out := Some(out));
    var s3 := s2.(pub := Some(pub));
    var s4 := s3.(input := Some(input));
    assert EncScan(p, docs, args, 0, NoArgs) == EncScan(p, docs, args, 1, s1);
    assert EncScan(p, docs, args, 1, s1) == EncScan(p, docs, args, 3, s2);
    assert EncScan(p, docs, args, 3, s2) == EncScan(p, docs, args, 4, s3);
    assert EncScan(p, docs, args, 4, s3) == EncScan(p, docs, args, 5, s4);
    assert EncScan(p, docs, args, 5, s4) == EncScan(p, docs, args, 6, s4.(policy := Some(p.parsePolicy(pol))));
    var oargs := ["-o", out, pub, input];
    var o1 := NoArgs.(out := Some(out));
    assert EncScan(p, docs, oargs, 0, NoArgs) == EncScan(p, docs, oargs, 2, o1);
    assert EncScan(p, docs, oargs, 2, o1) == EncScan(p, docs, oargs, 3, o1.(pub := Some(pub)));
    assert EncScan(p, docs, oargs, 3, o1.(pub := Some(pub)))
        == EncScan(p, docs, oargs, 4, o1.(pub := Some(pub), input := Some(input)));
  }

  /** `-d` changes nothing but the draws: the run encrypts with the
      seeded stream instead of the environment's. */
  lemma DeterministicUsesSeed(p: Primitives, docs: Documents, stdin: string, env: nat -> nat,
                              pub: string, input: string, pol: string, fs: FileSystem)
    requires DocumentsWalkable(docs)
    requires !IsEncOption(pub) && !IsEncOption(input) && !IsEncOption(pol)
    ensures EncParse(p, docs, stdin, ["-d", pub, input, pol])
      == Ok(EncConfig(pub, true, Single(input, input + ".cpabe", false, p.parsePolicy(pol))))
    ensures EncMain(p, docs, stdin, env, ["-d", pub, input, pol], fs)
      == if pub !in fs then Outcome(fs, 1)
         else RunSingle(p, fs[pub], input, input + ".cpabe", false, p.parsePolicy(pol), p.seeded(0), fs)
  {
    var args := ["-d", pub, input, pol];
    var s1 := NoArgs.(deterministic := true);
    var s2 := s1.(pub := Some(pub));
    var s3 := s2.(input := Some(input));
    assert EncScan(p, docs, args, 0, NoArgs) == EncScan(p, docs, args, 1, s1);
    assert EncScan(p, docs, args, 1, s1) == EncScan(p, docs, args, 2, s2);
    assert EncScan(p, docs, args, 2, s2) == EncScan(p, docs, args, 3, s3);
    assert EncScan(p, docs, args, 3, s3) == EncScan(p, docs, args, 4, s3.(policy := Some(p.parsePolicy(pol))));
  }

  /** `-x` with a readable MPD whose policies compile selects batch mode
      with the document's policies and file names; an unreadable MPD is
      ignored and the remaining arguments decide. */
  lemma XmlSelectsBatch(p: Primitives, docs: Documents, stdin: string, path: string, pub: string)
    requires DocumentsWalkable(docs)
    requires !IsEncOption(pub)
    ensures path in docs && ParseXml(Some(docs[path])).Ok? ==>
      EncParse(p, docs, stdin, ["-x", path, pub])
        == Ok(EncConfig(pub, false, Batch(ParseXml(Some(docs[path])).value.value.policies,
                                          FileNames(docs[path].baseUrls))))
    ensures path in docs && ParseXml(Some(docs[path])).Exit? ==>
      EncParse(p, docs, stdin, ["-x", path, pub]) == Exit(ParseXml(Some(docs[path])).code)
    ensures path !in docs ==> EncParse(p, docs, stdin, ["-x", path, pub]) == Exit(1)
  {
    var args := ["-x", path, pub];
    assert args[0] == "-x" && NextArg(args, 0) == Some(path);
    if path in docs && ParseXml(Some(docs[path])).Exit? {
      assert EncStep(p, docs, "-x", Some(path), NoArgs) == Exit(ParseXml(Some(docs[path])).code);
    } else {
      var st := if path in docs then NoArgs.(xml := ParseXml(Some(docs[path])).value) else NoArgs;
      assert EncStep(p, docs, "-x", Some(path), NoArgs) == Ok((st, 2));
      assert EncScan(p, docs, args, 0, NoArgs) == EncScan(p, docs, args, 2, st);
      assert EncScan(p, docs, args, 2, st) == EncScan(p, docs, args, 3, st.(pub := Some(pub)));
    }
  }
}

=== FILE: enc_tool.dfy ===
/** `cpabe-enc`: the option loop and the defaults of `parse_args`, and the
    choice in `main` between encrypting the (policy, file) pairs an MPD
    yields and encrypting one file under one policy. */
module EncTool {
  import opened Results
  import opened MpdNames
  import opened Cpabe
  import opened BaseUrls

  /** The globals `parse_args` fills in. `policy` holds the parsed policy;
      `xml` is set once an MPD has been read (both of the source's arrays
      are then non-null). */
  datatype EncArgs = EncArgs(
    pub: Option<string>,
    input: Option<string>,
    out: Option<string>,
    keep: bool,
    deterministic: bool,
    policy: Option<string>,
    xml: Option<Extracted>)

  const NoArgs := EncArgs(None, None, None, false, false, None, None)

  /** The work `main` is left with once the arguments are settled. */
  datatype EncPlan =
    | Batch(policies: seq<string>, files: seq<string>)
    | Single(input: string, out: string, keep: bool, policy: string)

  datatype EncConfig = EncConfig(pub: string, deterministic: bool, plan: EncPlan)

  /** The MPD files that can be read, already selected into their
      Representation and BaseURL nodes. */
  type Documents = map<string, Manifest>

  predicate DocumentsWalkable(docs: Documents) {
    forall path | path in docs :: ManifestWalkable(docs[path])
  }

  function Lookup(docs: Documents, path: string): Option<Manifest> {
    if path in docs then Some(docs[path]) else None
  }

  /** What an argument of the loop is: one of the options, each with its
      short and its long spelling, or a plain argument. */
  datatype EncFlag = Help | Version | Keep | Output | Deterministic | XmlInput | Plain

  function EncFlagOf(a: string): EncFlag {
    if a == "-h" || a == "--help" then Help
    else if a == "-v" || a == "--version" then Version
    else if a == "-k" || a == "--keep-input-file" then Keep
    else if a == "-o" || a == "--output" then Output
    else if a == "-d" || a == "--deterministic" then Deterministic
    else if a == "-x" || a == "--xml-input" then XmlInput
    else Plain
  }

  /** Option words the loop recognises. */
  predicate IsEncOption(a: string) {
    EncFlagOf(a) != Plain
  }

  /** What the loop never undoes: a public key or input name once taken
      stays, `-k` and `-d` stay on, and an MPD once read stays read. */
  predicate Extends(st: EncArgs, st2: EncArgs) {
    && (st.pub.Some? ==> st2.pub == st.pub)
    && (st.input.Some? ==> st2.input == st.input)
    && (st.keep ==> st2.keep)
    && (st.deterministic ==> st2.deterministic)
    && (st.xml.Some? ==> st2.xml.Some?)
  }

  /** One turn of the loop over `argv[1..]`: the globals after argument
      `a` and how many arguments the turn used (2 for an option that takes
      the following argument `next`). Help and version exit with 0; `die`
      exits with 1; the policy compiler's exits surface unchanged. */
  function EncStep(p: Primitives, docs: Documents, a: string, next: Option<string>, st: EncArgs): (r: Result<(EncArgs, nat)>)
    requires DocumentsWalkable(docs)
    ensures r.Ok? ==> (r.value.1 == 2 <==> EncFlagOf(a) == Output || EncFlagOf(a) == XmlInput)
    ensures r.Ok? ==> (r.value.1 == 1 || r.value.1 == 2)
    ensures r.Ok? && next.None? ==> r.value.1 == 1
    ensures r.Exit? ==> 0 <= r.code <= 3
    ensures r.Ok? ==> Extends(st, r.value.0)
    ensures EncFlagOf(a) == Help || EncFlagOf(a) == Version ==> r == Exit(0)
    ensures EncFlagOf(a) == Keep ==> r == Ok((st.(keep := true), 1))
    ensures EncFlagOf(a) == Deterministic ==> r == Ok((st.(deterministic := true), 1))
    ensures EncFlagOf(a) == Output ==> r == if next.None? then Exit(1) else Ok((st.(out := next), 2))
    ensures EncFlagOf(a) == XmlInput && next.None? ==> r == Exit(1)
    ensures EncFlagOf(a) == XmlInput && next.Some? ==> r == XmlStep(docs, next.value, st)
    ensures EncFlagOf(a) == Plain ==> r == PlainStep(p, a, st)
  {
    match EncFlagOf(a)
    case Help => Exit(0)
    case Version => Exit(0)
    case Keep => Ok((st.(keep := true), 1))
    case Output =>
      (match next
       case None => Exit(1)
       case Some(file) => Ok((st.(out := Some(file)), 2)))
    case Deterministic => Ok((st.(deterministic := true), 1))
    case XmlInput =>
      (match next
       case None => Exit(1)
       case Some(file) =>
         XmlStep(docs, file, st))
    case Plain => PlainStep(p, a, st)
  }

  /** `-x FILE`: a readable MPD is compiled and its policies and file
      names replace any read before; an unreadable one is ignored; the
      compiler's exits surface unchanged. */
  function XmlStep(docs: Documents, file: string, st: EncArgs): (r: Result<(EncArgs, nat)>)
    requires DocumentsWalkable(docs)
    ensures file !in docs ==> r == Ok((st, 2))
    ensures file in docs ==>
      match ParseXml(Some(docs[file]))
      case Exit(code) => r == Exit(code)
      case Ok(x) => x.Some? && r == Ok((st.(xml := x), 2))
  {
    var parsed :- ParseXml(Lookup(docs, file));
    Ok((if parsed.Some? then st.(xml := parsed) else st, 2))
  }

  /** A plain argument fills the first free slot of public key, input and
      policy (the policy only without an MPD), and dies when none is free. */
  function PlainStep(p: Primitives, a: string, st: EncArgs): (r: Result<(EncArgs, nat)>)
    ensures r.Ok? <==> st.pub.None? || st.input.None? || (st.policy.None? && st.xml.None?)
    ensures r.Exit? ==> r.code == 1
    ensures st.pub.None? ==> r == Ok((st.(pub := Some(a)), 1))
    ensures st.pub.Some? && st.input.None? ==> r == Ok((st.(input := Some(a)), 1))
    ensures st.pub.Some? && st.input.Some? && st.policy.None? && st.xml.None? ==>
      r == Ok((st.(policy := Some(p.parsePolicy(a))), 1))
  {
    if st.pub.None? then Ok((st.(pub := Some(a)), 1))
    else if st.input.None? then Ok((st.(input := Some(a)), 1))
    else if st.policy.None? && st.xml.None? then Ok((st.(policy := Some(p.parsePolicy(a))), 1))
    else Exit(1)
  }

  /** The argument after position `i`, if there is one. */
  function NextArg(args: seq<string>, i: nat): Option<string> {
    if i + 1 < |args| then Some(args[i + 1]) else None
  }

  /** The loop from position `i` with the globals `st`. */
  function EncScan(p: Primitives, docs: Documents, args: seq<string>, i: nat, st: EncArgs): (r: Result<EncArgs>)
    requires DocumentsWalkable(docs)
    requires i <= |args|
    ensures r.Exit? ==> 0 <= r.code <= 3
    ensures r.Ok? ==> Extends(st, r.value)
    decreases |args| - i
  {
    if i == |args| then Ok(st)
    else
      var step :- EncStep(p, docs, args[i], NextArg(args, i), st);
      EncScan(p, docs, args, i + step.1, step.0)
  }

  /** The checks and defaults after the loop. Without an MPD the output
      defaults to the input name plus `.cpabe` and a missing policy is read
      from standard input (`stdin`). */
  function EncSetup(p: Primitives, stdin: string, st: EncArgs): (r: Result<EncConfig>)
    ensures r.Exit? <==> st.pub.None? || (st.input.None? && st.xml.None?)
    ensures r.Exit? ==> r.code == 1
    ensures r.Ok? ==> r.value.pub == st.pub.value && r.value.deterministic == st.deterministic
    ensures r.Ok? ==> (r.value.plan.Batch? <==> st.xml.Some?)
  {
    if st.pub.None? || (st.input.None? && st.xml.None?) then Exit(1)
    else
      var out := if st.out.None? && st.xml.None? then Some(st.input.value + ".cpabe") else st.out;
      var policy := if st.policy.None? && st.xml.None? then Some(p.parsePolicy(stdin)) else st.policy;
      match st.xml
      case Some(x) => Ok(EncConfig(st.pub.value, st.deterministic, Batch(x.policies, x.files)))
      case None => Ok(EncConfig(st.pub.value, st.deterministic, Single(st.input.value, out.value, st.keep, policy.value)))
  }

  function EncParse(p: Primitives, docs: Documents, stdin: string, args: seq<string>): (r: Result<EncConfig>)
    requires DocumentsWalkable(docs)
    ensures r.Exit? ==> 0 <= r.code <= 3
  {
    var st :- EncScan(p, docs, args, 0, NoArgs);
    EncSetup(p, stdin, st)
  }

  function Min(a: nat, b: nat): nat {
    if a < b then a else b
  }

  /** The batch loop from pair `i` to pair `n`: pair `i` is encrypted under
      `policies[i]` and written next to `files[i]` with the suffix; the
      input stays. A scheme error or an unreadable file ends the process,
      keeping the outputs already written. */
  function RunBatch(p: Primitives, pubKey: Bytes, policies: seq<string>, files: seq<string>,
                    coins: nat -> nat, i: nat, n: nat, fs: FileSystem): (r: Outcome)
    requires i <= n <= |policies| && n <= |files|
    ensures r.status == 0 || r.status == 1
    decreases n - i
  {
    if i == n then Outcome(fs, 0)
    else
      match p.abeEnc(pubKey, p.parsePolicy(policies[i]), coins(i))
      case None => Outcome(fs, 1)
      case Some((cph, key)) =>
        if files[i] !in fs then Outcome(fs, 1)
        else RunBatch(p, pubKey, policies, files, coins, i + 1, n,
                      fs[files[i] + Suffix := Sealed(p, cph, key, fs[files[i]])])
  }

  /** Single mode: encrypt `input` to `out`, then remove `input` unless
      `keep` was given. Nothing stops `out` from naming `input`. */
  function RunSingle(p: Primitives, pubKey: Bytes, input: string, out: string, keep: bool,
                     policy: string, coin: nat, fs: FileSystem): (r: Outcome)
    ensures r.status == 0 || r.status == 1
  {
    match p.abeEnc(pubKey, policy, coin)
    case None => Outcome(fs, 1)
    case Some((cph, key)) =>
      if input !in fs then Outcome(fs, 1)
      else
        var written := fs[out := Sealed(p, cph, key, fs[input])];
        Outcome(if keep then written else written - {input}, 0)
  }

  /** The random draws the run uses: the seeded stream under `-d`, the
      environment's otherwise. */
  function Coins(p: Primitives, deterministic: bool, env: nat -> nat): nat -> nat {
    if deterministic then p.seeded else env
  }

  /** A whole run of `cpabe-enc` on the arguments after the program name. */
  function EncMain(p: Primitives, docs: Documents, stdin: string, env: nat -> nat,
                   args: seq<string>, fs: FileSystem): (r: Outcome)
    requires DocumentsWalkable(docs)
    ensures 0 <= r.status <= 3
    ensures EncParse(p, docs, stdin, args).Exit? ==> r == Outcome(fs, EncParse(p, docs, stdin, args).code)
    ensures EncParse(p, docs, stdin, args).Ok? && EncParse(p, docs, stdin, args).value.pub !in fs ==>
      r == Outcome(fs, 1)
  {
    match EncParse(p, docs, stdin, args)
    case Exit(code) => Outcome(fs, code)
    case Ok(cfg) =>
      if cfg.pub !in fs then Outcome(fs, 1)
      else
        var coins := Coins(p, cfg.deterministic, env);
        match cfg.plan
        case Batch(policies, files) =>
          RunBatch(p, fs[cfg.pub], policies, files, coins, 0, Min(|policies|, |files|), fs)
        case Single(input, out, keep, policy) =>
          RunSingle(p, fs[cfg.pub], input, out, keep, policy, coins(0), fs)
  }
}

=== FILE: mpd_names.dfy ===
/** The tag names, property names and constants of `mpd_policy.h`. */
module MpdNames {

  const LogicalType: string := "Logical"
  const CompositionType: string := "Composition"

  const OperatorAnd: string := "AND"
  const OperatorOr: string := "OR"

  const OperatorValueProp: string := "OperatorValue"
  const OperatorTypeProp: string := "OperatorType"

  const AttributesGroup: string := "AttributesGroup"
  const AttributeElement: string := "Attribute"
  const AttributeName: string := "Name"
  const AttributeValue: string := "Value"
  const AttributeOperator: string := "Operator"

  /** Element name matched by the policy selector (any element named Representation). */
  const Representation: string := "Representation"
  /** Element name matched by the file-name selector (any element named BaseURL). */
  const BaseUrl: string := "BaseURL"

  const Suffix: string := "_out"
  const SuffixLen: nat := 4

  /** Exit codes of the policy compiler. */
  const BadNode: int := 1
  const IncompleteAttribute: int := 2
  const BadGroupProperty: int := 3

  lemma SuffixLength()
    ensures |Suffix| == SuffixLen
  {
  }
}

=== FILE: parens.dfy ===
/** Parenthesis balance of a policy string, as a left-to-right scan of the
    nesting depth. */
module Parens {
  import opened Results

  predicate ParenFree(s: string) {
    '(' !in s && ')' !in s
  }

  /** The nesting depth after reading `s` from depth `d`, or None when a
      ')' closes below depth zero. */
  function Depth(s: string, d: nat): Option<nat>
    decreases |s|
  {
    if |s| == 0 then Some(d)
    else if s[0] == '(' then Depth(s[1..], d + 1)
    else if s[0] == ')' then (if d == 0 then None else Depth(s[1..], d - 1))
    else Depth(s[1..], d)
  }

  predicate Balanced(s: string) {
    Depth(s, 0) == Some(0)
  }

  lemma {:induction false} DepthAppend(a: string, b: string, d: nat)
    ensures Depth(a + b, d) == (match Depth(a, d) case None => None case Some(e) => Depth(b, e))
    decreases |a|
  {
    if |a| == 0 {
      assert a + b == b;
    } else {
      assert (a + b)[1..] == a[1..] + b;
      if a[0] == '(' {
        DepthAppend(a[1..], b, d + 1);
      } else if a[0] == ')' {
        if d > 0 {
          DepthAppend(a[1..], b, d - 1);
        }
      } else {
        DepthAppend(a[1..], b, d);
      }
    }
  }

  lemma {:induction false} DepthParenFree(s: string, d: nat)
    requires ParenFree(s)
    ensures Depth(s, d) == Some(d)
    decreases |s|
  {
    if |s| > 0 {
      assert s[0] in s;
      assert forall c :: c in s[1..] ==> c in s;
      DepthParenFree(s[1..], d);
    }
  }

  /** Starting deeper only shifts the depth reached. */
  lemma {:induction false} DepthShift(s: string, d: nat, k: nat)
    requires Depth(s, d).Some?
    ensures Depth(s, d + k) == Some(Depth(s, d).value + k)
    decreases |s|
  {
    if |s| > 0 {
      if s[0] == '(' {
        DepthShift(s[1..], d + 1, k);
      } else if s[0] == ')' {
        DepthShift(s[1..], d - 1, k);
      } else {
        DepthShift(s[1..], d, k);
      }
    }
  }

  lemma BalancedConcat(a: string, b: string)
    requires Balanced(a) && Balanced(b)
    ensures Balanced(a + b)
  {
    DepthAppend(a, b, 0);
  }

  lemma ParenFreeBalanced(s: string)
    requires ParenFree(s)
    ensures Balanced(s)
  {
    DepthParenFree(s, 0);
  }

  /** A balanced string between an opener ending in '(' and the closer
      " )" stays balanced. */
  lemma BalancedWrap(prefix: string, body: string)
    requires ParenFree(prefix)
    requires Balanced(body)
    ensures Balanced(prefix + "(" + body + " )")
    ensures Balanced(prefix + "( " + body + " )")
  {
    DepthParenFree(prefix, 0);
    DepthShift(body, 0, 1);
    assert Depth(" )", 1) == Some(0);
    assert Depth("( ", 0) == Some(1);
    DepthAppend(prefix, "(", 0);
    DepthAppend(prefix + "(", body, 0);
    DepthAppend(prefix + "(" + body, " )", 0);
    DepthAppend(prefix, "( ", 0);
    DepthAppend(prefix + "( ", body, 0);
    DepthAppend(prefix + "( " + body, " )", 0);
  }
}

=== FILE: pipeline.dfy ===
/** The two tools together: what `cpabe-enc` writes, `cpabe-dec` turns
    back into the original file. */
module Pipeline {
  import opened Results
  import opened MpdNames
  import opened Cpabe
  import opened EncTool
  import opened DecTool
  import EncProperties
  import DecProperties

  /** `cpabe-enc PUB FILE POLICY` followed by `cpabe-dec PUB PRV
      FILE.cpabe`, with a private key that recovers the session key,
      restores the file system: `FILE` holds its original bytes again and
      only a `FILE.cpabe` that existed before is gone. */
  lemma CommandLineRoundTrip(p: Primitives, docs: Documents, stdin: string, env: nat -> nat, fs: FileSystem,
                             pub: string, prv: string, file: string, policy: string, cph: Bytes, key: Bytes)
    requires AesPadded(p) && CodecRoundTrip(p)
    requires DocumentsWalkable(docs)
    requires !IsEncOption(pub) && !IsEncOption(file) && !IsEncOption(policy)
    requires !IsDecOption(pub) && !IsDecOption(prv) && !IsDecOption(file + CpabeExtension)
    requires |file| > 0
    requires pub in fs && prv in fs && file in fs
    requires file != pub && file != prv && file + CpabeExtension != pub && file + CpabeExtension != prv
    requires p.abeEnc(fs[pub], p.parsePolicy(policy), env(0)) == Some((cph, key))
    requires p.abeDec(fs[pub], fs[prv], cph) == Some(key)
    ensures var e := EncMain(p, docs, stdin, env, [pub, file, policy], fs);
      && e == Outcome(fs[file + CpabeExtension := Sealed(p, cph, key, fs[file])] - {file}, 0)
      && DecMain(p, [pub, prv, file + CpabeExtension], e.fs) == Outcome(fs - {file + CpabeExtension}, 0)
      && DecMainAsWritten(p, [pub, prv, file + CpabeExtension], e.fs) == Outcome(fs - {file + CpabeExtension}, 0)
  {
    var sealedName := file + CpabeExtension;
    EncProperties.PlainArguments(p, docs, stdin, [pub, file, policy]);
    var e := EncMain(p, docs, stdin, env, [pub, file, policy], fs);
    var encrypted := fs[sealedName := Sealed(p, cph, key, fs[file])] - {file};
    assert e == Outcome(encrypted, 0);
    SealedFileDecrypts(p, encrypted, pub, prv, file, cph, key, fs[file]);
    RestoreAfterRemoval(fs, file, sealedName, Sealed(p, cph, key, fs[file]));
  }

  /** Putting back a removed file and dropping the one written in its
      place restores the file system. */
  lemma RestoreAfterRemoval(fs: FileSystem, file: string, other: string, bytes: Bytes)
    requires file in fs && file != other
    ensures (fs[other := bytes] - {file})[file := fs[file]] - {other} == fs - {other}
  {
    var l := (fs[other := bytes] - {file})[file := fs[file]] - {other};
    assert l.Keys == fs.Keys - {other};
  }

  /** `cpabe-dec PUB PRV FILE.cpabe` on a container sealed under a key the
      private key recovers writes the plaintext to `FILE` and removes the
      container, with either last step. */
  lemma SealedFileDecrypts(p: Primitives, fs: FileSystem, pub: string, prv: string, file: string,
                           cph: Bytes, key: Bytes, plain: Bytes)
    requires AesPadded(p) && CodecRoundTrip(p)
    requires !IsDecOption(pub) && !IsDecOption(prv) && !IsDecOption(file + CpabeExtension)
    requires |file| > 0
    requires pub in fs && prv in fs && file + CpabeExtension in fs
    requires fs[file + CpabeExtension] == Sealed(p, cph, key, plain)
    requires p.abeDec(fs[pub], fs[prv], cph) == Some(key)
    ensures DecMain(p, [pub, prv, file + CpabeExtension], fs)
      == Outcome(fs[file := plain] - {file + CpabeExtension}, 0)
    ensures DecMainAsWritten(p, [pub, prv, file + CpabeExtension], fs)
      == Outcome(fs[file := plain] - {file + CpabeExtension}, 0)
  {
    var sealedName := file + CpabeExtension;
    DecProperties.PlainArguments([pub, prv, sealedName]);
    DecProperties.OutputNameRules(file);
    var cfg := DecConfig(pub, prv, sealedName, file, false);
    assert DecParse([pub, prv, sealedName]) == Ok(cfg);
    DecProperties.DecryptRestores(p, cfg, fs, cph, key, plain);
  }

  /** A batch output carries the `_out` suffix, not `.cpabe`, so
      `cpabe-dec` derives the output name equal to the input and decrypts
      it in place. */
  lemma BatchOutputIsDecryptedInPlace(name: string)
    ensures DecOutputName(name + Suffix) == name + Suffix
  {
    SuffixLength();
    var out := name + Suffix;
    DecProperties.OutputNameRules(out);
    assert out[|out| - 1] == 't' && CpabeExtension[|CpabeExtension| - 1] == 'e';
  }

  /** Decrypting pair `j`'s output of a successful batch without `-o`
      leaves the original file's bytes at the output's name with the
      corrected last step; as written, the output is removed and nothing
      is left. */
  lemma BatchOutputRoundTrip(p: Primitives, pubKey: Bytes, policies: seq<string>, files: seq<string>,
                             coins: nat -> nat, n: nat, fs: FileSystem, j: nat, pub: string, prv: string)
    requires AesPadded(p) && CodecRoundTrip(p)
    requires n <= |policies| && n <= |files| && j < n
    requires EncProperties.IndependentPairs(files, 0, n)
    requires EncProperties.PairsSucceed(p, pubKey, policies, files, coins, 0, n, fs)
    requires !IsDecOption(pub) && !IsDecOption(prv) && !IsDecOption(files[j] + Suffix)
    requires var r := RunBatch(p, pubKey, policies, files, coins, 0, n, fs);
      && pub in r.fs && prv in r.fs && pub != files[j] + Suffix && prv != files[j] + Suffix
      && p.abeDec(r.fs[pub], r.fs[prv], p.abeEnc(pubKey, p.parsePolicy(policies[j]), coins(j)).value.0)
           == Some(p.abeEnc(pubKey, p.parsePolicy(policies[j]), coins(j)).value.1)
    ensures var r := RunBatch(p, pubKey, policies, files, coins, 0, n, fs);
      var out := files[j] + Suffix;
      && DecMain(p, [pub, prv, out], r.fs) == Outcome(r.fs[out := fs[files[j]]], 0)
      && DecMainAsWritten(p, [pub, prv, out], r.fs) == Outcome(r.fs - {out}, 0)
  {
    var r := RunBatch(p, pubKey, policies, files, coins, 0, n, fs);
    var out := files[j] + Suffix;
    var (cph, key) := p.abeEnc(pubKey, p.parsePolicy(policies[j]), coins(j)).value;
    EncProperties.BatchWritesEveryPair(p, pubKey, policies, files, coins, 0, n, fs);
    assert out == EncProperties.OutputOf(files, j);
    assert out in r.fs && r.fs[out] == EncProperties.PairSealed(p, pubKey, policies, coins, j, fs[files[j]]);
    BatchOutputIsDecryptedInPlace(files[j]);
    DecProperties.InPlaceDecryption(p, pub, prv, out, r.fs, cph, key, fs[files[j]]);
  }
}

=== FILE: policy_compiler.dfy ===
/** The policy compiler of mpd_policy.c: renders the AttributesGroup
    subtree under each selected Representation element as a textual
    CP-ABE policy. Every `exit(code)` of the source is an `Exit(code)`. */
module PolicyCompiler {
  import opened Results
  import opened Xml
  import opened MpdNames
  import opened Spaces

  // ---------------------------------------------------------------------
  // Group operator properties
  // ---------------------------------------------------------------------

  /** The two properties a group reads: `OperatorType` and `OperatorValue`. */
  datatype GroupOps = GroupOps(opType: Option<string>, opValue: Option<string>)

  const NoOps: GroupOps := GroupOps(None, None)

  predicate KnownGroupProp(p: Prop) {
    p.name == OperatorTypeProp || p.name == OperatorValueProp
  }

  /** Index of the last property named `key`. */
  function LastPropIndex(props: seq<Prop>, key: string): (r: Option<nat>)
    ensures r.Some? ==> r.value < |props| && props[r.value].name == key
    ensures r.Some? ==> forall k :: r.value < k < |props| ==> props[k].name != key
    ensures r.None? ==> forall k :: 0 <= k < |props| ==> props[k].name != key
    decreases |props|
  {
    if |props| == 0 then None
    else
      match LastPropIndex(props[1..], key)
      case Some(j) => Some(j + 1)
      case None => if props[0].name == key then Some(0) else None
  }

  /** The value of the last property named `key`, if any. */
  function LastValueOf(props: seq<Prop>, key: string): Option<string> {
    match LastPropIndex(props, key)
    case Some(j) => Some(props[j].value)
    case None => None
  }

  /** The property loop of `parse_attributes_group`: a later occurrence
      overwrites an earlier one and any other property exits with 3. */
  function ReadProps(props: seq<Prop>, acc: GroupOps): (r: Result<GroupOps>)
    ensures r.Exit? <==> exists k :: 0 <= k < |props| && !KnownGroupProp(props[k])
    ensures r.Exit? ==> r.code == BadGroupProperty
    ensures r.Ok? ==> r.value.opType == LastValueOf(props, OperatorTypeProp).OrElse(acc.opType)
    ensures r.Ok? ==> r.value.opValue == LastValueOf(props, OperatorValueProp).OrElse(acc.opValue)
    decreases |props|
  {
    if |props| == 0 then Ok(acc)
    else if props[0].name == OperatorTypeProp then
      ReadProps(props[1..], acc.(opType := Some(props[0].value)))
    else if props[0].name == OperatorValueProp then
      ReadProps(props[1..], acc.(opValue := Some(props[0].value)))
    else Exit(BadGroupProperty)
  }

  /** The operators a group call uses: read from the properties of the
      parent of its first sibling, and only when that parent is itself an
      AttributesGroup. */
  function GroupOpsOf(parent: Node): (r: Result<GroupOps>)
    requires parent.Element?
    ensures parent.name != AttributesGroup ==> r == Ok(NoOps)
    ensures parent.name == AttributesGroup ==>
      (r.Exit? <==> exists k :: 0 <= k < |parent.props| && !KnownGroupProp(parent.props[k]))
    ensures r.Exit? ==> r.code == BadGroupProperty
    ensures parent.name == AttributesGroup && r.Ok? ==>
      r.value == GroupOps(LastValueOf(parent.props, OperatorTypeProp), LastValueOf(parent.props, OperatorValueProp))
  {
    if parent.name == AttributesGroup then ReadProps(parent.props, NoOps) else Ok(NoOps)
  }

  /** The source dereferences `OperatorValue` whenever the type is Logical
      or Composition; it must then be present. */
  predicate OperatorValueGiven(props: seq<Prop>) {
    var t := LastValueOf(props, OperatorTypeProp);
    (t == Some(LogicalType) || t == Some(CompositionType)) ==> LastValueOf(props, OperatorValueProp).Some?
  }

  predicate OpsUsable(ops: GroupOps) {
    (ops.opType == Some(LogicalType) || ops.opType == Some(CompositionType)) ==> ops.opValue.Some?
  }

  function Opener(ops: GroupOps): string
    requires OpsUsable(ops)
  {
    if ops.opType == Some(CompositionType) then ops.opValue.value + " of (" else "( "
  }

  const Closer: string := " )"

  /** The Logical operator token: AND and OR are lower-cased, any other
      value is used verbatim. */
  function LogicalToken(v: string): string {
    if v == OperatorAnd then "and" else if v == OperatorOr then "or" else v
  }

  function Separator(ops: GroupOps): string
    requires OpsUsable(ops)
  {
    if ops.opType == Some(LogicalType) then " " + LogicalToken(ops.opValue.value) + " " else ", "
  }

  // ---------------------------------------------------------------------
  // Leaf attributes
  // ---------------------------------------------------------------------

  predicate FieldTag(t: string) {
    t == AttributeName || t == AttributeValue || t == AttributeOperator
  }

  /** A Name/Value/Operator child must have a child for `it->last` to be
      dereferenced. */
  predicate FieldReadable(c: Node) {
    c.Element? && FieldTag(c.name) ==> |c.children| > 0
  }

  predicate FieldsReadable(children: seq<Node>) {
    forall c | c in children :: FieldReadable(c)
  }

  /** The content a first-to-last scan holds for field `tag`: the
      `last->content` of the last child named `tag`, or `prior` when no
      such child exists. */
  function ScanField(children: seq<Node>, tag: string, prior: Option<string>): Option<string>
    requires FieldsReadable(children) && FieldTag(tag)
  {
    match LastIndexOf(children, tag)
    case None => prior
    case Some(j) =>
      assert children[j] in children;
      LastContent(children[j])
  }

  /** Field `tag` of an Attribute element, None when missing or NULL. */
  function FieldValue(children: seq<Node>, tag: string): Option<string>
    requires FieldsReadable(children) && FieldTag(tag)
  {
    ScanField(children, tag, None)
  }

  datatype Fields = Fields(name: Option<string>, value: Option<string>, op: Option<string>)

  /** The child loop of `parse_attribute`. */
  function ReadFields(children: seq<Node>, acc: Fields): (r: Result<Fields>)
    requires FieldsReadable(children)
    ensures r.Exit? <==> exists k :: 0 <= k < |children| && children[k].Element? && !FieldTag(children[k].name)
    ensures r.Exit? ==> r.code == BadNode
    ensures r.Ok? ==> r.value.name == ScanField(children, AttributeName, acc.name)
    ensures r.Ok? ==> r.value.value == ScanField(children, AttributeValue, acc.value)
    ensures r.Ok? ==> r.value.op == ScanField(children, AttributeOperator, acc.op)
    decreases |children|
  {
    if |children| == 0 then Ok(acc)
    else
      var c := children[0];
      assert c in children && FieldReadable(c);
      if !c.Element? then ReadFields(children[1..], acc)
      else if c.name == AttributeName then ReadFields(children[1..], acc.(name := LastContent(c)))
      else if c.name == AttributeValue then ReadFields(children[1..], acc.(value := LastContent(c)))
      else if c.name == AttributeOperator then ReadFields(children[1..], acc.(op := LastContent(c)))
      else Exit(BadNode)
  }

  /** The text of a complete leaf, from its three raw field contents. */
  function LeafText(name: string, op: string, value: string): string {
    var n := RemoveSpaces(name);
    var o := RemoveSpaces(op);
    var v := RemoveSpaces(value);
    if v == "*" then n else n + " " + o + " " + v
  }

  /** `parse_attribute`, given the Attribute element whose children it
      scans. It exits with BAD FORMAT exactly when some element child is
      not a field, with INCOMPLETE exactly when otherwise a field is
      missing, and yields the leaf text of the last Name, Operator and
      Value fields. */
  function RenderAttribute(attr: Node): (r: Result<string>)
    requires attr.Element? && FieldsReadable(attr.children)
    ensures r.Exit? ==> r.code == BadNode || r.code == IncompleteAttribute
    ensures r == Exit(BadNode) <==>
      exists k :: 0 <= k < |attr.children| && attr.children[k].Element? && !FieldTag(attr.children[k].name)
    ensures r == Exit(IncompleteAttribute) <==>
      && r != Exit(BadNode)
      && (|| FieldValue(attr.children, AttributeName).None?
          || FieldValue(attr.children, AttributeValue).None?
          || FieldValue(attr.children, AttributeOperator).None?)
    ensures r.Ok? ==>
      r.value == LeafText(FieldValue(attr.children, AttributeName).value,
                          FieldValue(attr.children, AttributeOperator).value,
                          FieldValue(attr.children, AttributeValue).value)
  {
    var f :- ReadFields(attr.children, Fields(None, None, None));
    assert f.name == FieldValue(attr.children, AttributeName);
    assert f.op == FieldValue(attr.children, AttributeOperator);
    assert f.value == FieldValue(attr.children, AttributeValue);
    if f.name.None? || f.value.None? || f.op.None? then Exit(IncompleteAttribute)
    else Ok(LeafText(f.name.value, f.op.value, f.value.value))
  }

  // ---------------------------------------------------------------------
  // Groups
  // ---------------------------------------------------------------------

  /** The subtree can be walked without the source dereferencing NULL. */
  predicate Walkable(n: Node)
    decreases n
  {
    match n
    case Text(_) => true
    case Element(name, props, children) =>
      && (name == AttributesGroup ==>
            && |children| > 0
            && OperatorValueGiven(props)
            && forall c | c in children :: Walkable(c))
      && (name == AttributeElement ==> FieldsReadable(children))
  }

  /** Precondition of a group call that starts at `parent.children[from]`. */
  predicate SiblingsWalkable(parent: Node, from: nat) {
    && parent.Element?
    && from < |parent.children|
    && (parent.name == AttributesGroup ==> OperatorValueGiven(parent.props))
    && forall j | from <= j < |parent.children| :: Walkable(parent.children[j])
  }

  predicate ValidExit(r: Result<string>) {
    r.Exit? ==> r.code == BadNode || r.code == IncompleteAttribute || r.code == BadGroupProperty
  }

  /** One element child of a group: a nested group, a leaf, or BAD FORMAT. */
  function RenderElement(c: Node): (r: Result<string>)
    requires c.Element? && Walkable(c)
    ensures ValidExit(r)
    ensures c.name != AttributesGroup && c.name != AttributeElement ==> r == Exit(BadNode)
    decreases c, |c.children| + 1, 0
  {
    if c.name == AttributesGroup then RenderGroup(c, 0)
    else if c.name == AttributeElement then RenderAttribute(c)
    else Exit(BadNode)
  }

  /** Child `i` of a group's sibling list: non-element nodes contribute
      nothing; an element is followed by the separator when at least two
      more siblings follow it (`it->next && it->next->next`). */
  function RenderChild(parent: Node, ops: GroupOps, i: nat): (r: Result<string>)
    requires parent.Element? && i < |parent.children| && Walkable(parent.children[i]) && OpsUsable(ops)
    ensures ValidExit(r)
    decreases parent, |parent.children| - i, 0
  {
    var c := parent.children[i];
    if c.Text? then Ok("")
    else
      var res :- RenderElement(c);
      Ok(res + (if i + 2 < |parent.children| then Separator(ops) else ""))
  }

  /** The sibling loop of `parse_attributes_group` from child `i` on. */
  function RenderFrom(parent: Node, ops: GroupOps, i: nat): (r: Result<string>)
    requires parent.Element? && i <= |parent.children| && OpsUsable(ops)
    requires forall j | i <= j < |parent.children| :: Walkable(parent.children[j])
    ensures ValidExit(r)
    decreases parent, |parent.children| - i, 1
  {
    if i == |parent.children| then Ok("")
    else
      var head :- RenderChild(parent, ops, i);
      var tail :- RenderFrom(parent, ops, i + 1);
      Ok(head + tail)
  }

  /** `parse_attributes_group(parent.children[from])`; `GroupShape`
      states what it yields. */
  function RenderGroup(parent: Node, from: nat): (r: Result<string>)
    requires SiblingsWalkable(parent, from)
    ensures ValidExit(r)
    decreases parent, |parent.children| - from, 2
  {
    var ops :- GroupOpsOf(parent);
    var body :- RenderFrom(parent, ops, from);
    Ok(Opener(ops) + body + Closer)
  }

  /** An unknown property on an AttributesGroup parent exits with 3; a
      rendered group opens with "<n> of (" for a Composition parent and
      with "( " otherwise, and always ends with " )". */
  lemma GroupShape(parent: Node, from: nat)
    requires SiblingsWalkable(parent, from)
    ensures var r := RenderGroup(parent, from);
      && (parent.name == AttributesGroup && (exists k :: 0 <= k < |parent.props| && !KnownGroupProp(parent.props[k])) ==>
            r == Exit(BadGroupProperty))
      && (r.Ok? ==> |r.value| >= 2 && r.value[|r.value| - 2..] == Closer)
      && (r.Ok? && parent.name == AttributesGroup && LastValueOf(parent.props, OperatorTypeProp) == Some(CompositionType) ==>
            LastValueOf(parent.props, OperatorValueProp).value + " of (" <= r.value)
      && (r.Ok? && (parent.name != AttributesGroup || LastValueOf(parent.props, OperatorTypeProp) != Some(CompositionType)) ==>
            "( " <= r.value)
  {
    var r := RenderGroup(parent, from);
    if r.Ok? {
      var ops := GroupOpsOf(parent).value;
      var body := RenderFrom(parent, ops, from).value;
      assert r.value == Opener(ops) + body + Closer;
      assert r.value[|r.value| - 2..] == Closer;
      assert Opener(ops) <= r.value;
    }
  }

  // ---------------------------------------------------------------------
  // Representation nodes
  // ---------------------------------------------------------------------

  /** A selected Representation node: the siblings from its first
      AttributesGroup child on are walked. */
  predicate RepWalkable(rep: Node) {
    && IsElementNamed(rep, Representation)
    && match FirstIndexOf(rep.children, AttributesGroup)
       case None => true
       case Some(k) => forall j | k <= j < |rep.children| :: Walkable(rep.children[j])
  }

  predicate HasGroup(rep: Node) {
    rep.Element? && FirstIndexOf(rep.children, AttributesGroup).Some?
  }

  /** The inner loop of `parse_nodes_for_policies` for one node: the group
      call is passed the first AttributesGroup child itself, whose parent
      is the Representation. */
  function PolicyOf(rep: Node): (r: Result<Option<string>>)
    requires RepWalkable(rep)
    ensures ValidExit(if r.Ok? then Ok("") else Exit(r.code))
    ensures r.Ok? ==> (r.value.Some? <==> HasGroup(rep))
    ensures r.Ok? && r.value.Some? ==> "( " <= r.value.value
  {
    match FirstIndexOf(rep.children, AttributesGroup)
    case None => Ok(None)
    case Some(k) =>
      GroupShape(rep, k);
      var p :- RenderGroup(rep, k);
      Ok(Some(p))
  }

  /** Number of nodes that carry an AttributesGroup child. */
  function GroupCount(reps: seq<Node>): nat
    decreases |reps|
  {
    if |reps| == 0 then 0 else (if HasGroup(reps[0]) then 1 else 0) + GroupCount(reps[1..])
  }

  /** `parse_nodes_for_policies`: nodes are visited from the last to the
      first; each yields at most one policy and the first exit ends the run. */
  function Policies(reps: seq<Node>): (r: Result<seq<string>>)
    requires forall j | 0 <= j < |reps| :: RepWalkable(reps[j])
    ensures r.Exit? ==> r.code == BadNode || r.code == IncompleteAttribute || r.code == BadGroupProperty
    ensures r.Ok? ==> |r.value| == GroupCount(reps) && |r.value| <= |reps|
    decreases |reps|
  {
    if |reps| == 0 then Ok([])
    else
      var last := reps[|reps| - 1];
      var p :- PolicyOf(last);
      var rest :- Policies(reps[..|reps| - 1]);
      GroupCountSnoc(reps);
      Ok((if p.Some? then [p.value] else []) + rest)
  }

  lemma {:induction false} GroupCountSnoc(reps: seq<Node>)
    requires |reps| > 0
    ensures GroupCount(reps) == GroupCount(reps[..|reps| - 1]) + (if HasGroup(reps[|reps| - 1]) then 1 else 0)
    ensures GroupCount(reps) <= |reps|
    decreases |reps|
  {
    if |reps| > 1 {
      assert reps[1..][..|reps[1..]| - 1] == reps[..|reps| - 1][1..];
      GroupCountSnoc(reps[1..]);
    }
  }
}

=== FILE: policy_examples.dfy ===
/** Worked documents: what the compiler makes of a pretty-printed Logical
    group, of the same group written without whitespace between the tags,
    and of a Composition (threshold) group. Attribute names and values are
    parameters, so each lemma covers every document of that shape. */
module PolicyExamples {
  import opened Results
  import opened Xml
  import opened MpdNames
  import opened PolicyCompiler
  import opened PolicyProperties
  import opened Spaces

  function Field(tag: string, text: string): Node {
    Element(tag, [], [Text(text)])
  }

  /** `<Attribute><Name>n</Name><Operator>o</Operator><Value>v</Value></Attribute>` */
  function Leaf(name: string, op: string, value: string): Node {
    Element(AttributeElement, [], [Field(AttributeName, name), Field(AttributeOperator, op), Field(AttributeValue, value)])
  }

  function Group(opType: string, opValue: string, children: seq<Node>): Node {
    Element(AttributesGroup, [Prop(OperatorTypeProp, opType), Prop(OperatorValueProp, opValue)], children)
  }

  function Rep(children: seq<Node>): Node {
    Element(Representation, [], children)
  }

  const Indent: Node := Text("\n  ")

  /** The children as an indenting serializer lays them out: a whitespace
      text node before, between and after the given nodes. */
  function Pretty(nodes: seq<Node>): (r: seq<Node>)
    ensures |r| == 2 * |nodes| + 1
  {
    seq(2 * |nodes| + 1, j requires 0 <= j < 2 * |nodes| + 1 => if j % 2 == 0 || j / 2 >= |nodes| then Indent else nodes[j / 2])
  }

  lemma OddLength(m: nat)
    ensures (2 * m + 1) % 2 == 1 && (2 * m + 1) / 2 == m
  {
  }

  /** Position `j` of a pretty layout: whitespace at even positions, the
      node `j / 2` at odd ones. */
  lemma PrettyAt(nodes: seq<Node>, j: nat)
    requires j < 2 * |nodes| + 1
    ensures j % 2 == 0 || j % 2 == 1
    ensures j % 2 == 0 ==> Pretty(nodes)[j] == Indent
    ensures j % 2 == 1 ==> j / 2 < |nodes| && Pretty(nodes)[j] == nodes[j / 2]
  {
  }

  /** Laying out element children with `Pretty` gives the interleaved
      shape. */
  lemma PrettyShape(nodes: seq<Node>)
    requires forall q | 0 <= q < |nodes| :: nodes[q].Element?
    ensures Interleaved(Pretty(nodes))
  {
    var ch := Pretty(nodes);
    assert |ch| % 2 == 1 by {
      OddLength(|nodes|);
    }
    forall j | 0 <= j < |ch|
      ensures ch[j].Text? <==> j % 2 == 0
    {
      PrettyAt(nodes, j);
    }
  }

  lemma LeafRenders(name: string, op: string, value: string)
    ensures Walkable(Leaf(name, op, value))
    ensures RenderElement(Leaf(name, op, value)) == Ok(LeafText(name, op, value))
  {
    var ch := Leaf(name, op, value).children;
    assert ch[0] in ch && ch[1] in ch && ch[2] in ch;
    forall c | c in ch
      ensures FieldReadable(c)
    {
    }
    assert LastIndexOf(ch, AttributeName) == Some(0);
    assert LastIndexOf(ch, AttributeOperator) == Some(1);
    assert LastIndexOf(ch, AttributeValue) == Some(2);
  }

  /** Field texts without blanks are used as they are. */
  lemma PlainLeafText(name: string, op: string, value: string)
    requires ' ' !in name && ' ' !in op && ' ' !in value
    ensures LeafText(name, op, value) == if value == "*" then name else name + " " + op + " " + value
  {
    RemoveSpacesKeepsSpaceFree(name);
    RemoveSpacesKeepsSpaceFree(op);
    RemoveSpacesKeepsSpaceFree(value);
  }

  lemma GroupPropsRead(opType: string, opValue: string)
    ensures var props := Group(opType, opValue, []).props;
      && (forall k | 0 <= k < |props| :: KnownGroupProp(props[k]))
      && LastValueOf(props, OperatorTypeProp) == Some(opType)
      && LastValueOf(props, OperatorValueProp) == Some(opValue)
  {
    var props := Group(opType, opValue, []).props;
    assert props[1..][1..] == [];
    assert LastPropIndex(props[1..], OperatorValueProp) == Some(0);
    assert LastPropIndex(props[1..], OperatorTypeProp) == None;
  }

  /** A pretty-printed group of leaves renders as the opener, the leaf
      texts joined by the separator, and the closer. */
  lemma PrettyGroupRenders(opType: string, opValue: string, leaves: seq<Node>, parts: seq<string>)
    requires |leaves| == |parts|
    requires forall q {:trigger leaves[q]} | 0 <= q < |leaves| :: leaves[q].Element? && Walkable(leaves[q]) && RenderElement(leaves[q]) == Ok(parts[q])
    ensures var g := Group(opType, opValue, Pretty(leaves));
      && Walkable(g)
      && RenderElement(g) == Ok(Opener(GroupOps(Some(opType), Some(opValue)))
                                + Join(parts, Separator(GroupOps(Some(opType), Some(opValue)))) + Closer)
  {
    var g := Group(opType, opValue, Pretty(leaves));
    GroupPropsRead(opType, opValue);
    assert g.props == Group(opType, opValue, []).props;
    assert Interleaved(g.children) by {
      PrettyShape(leaves);
    }
    assert forall j | 0 <= j < |g.children| :: Walkable(g.children[j]) by {
      forall j | 0 <= j < |g.children|
        ensures Walkable(g.children[j])
      {
        PrettyAt(leaves, j);
      }
    }
    forall q | 0 <= q < |parts|
      ensures g.children[2 * q + 1] == leaves[q] && RenderElement(g.children[2 * q + 1]) == Ok(parts[q])
    {
      OddLength(q);
      PrettyAt(leaves, 2 * q + 1);
    }
    assert Walkable(g) by {
      forall c | c in g.children
        ensures Walkable(c)
      {
        var j :| 0 <= j < |g.children| && g.children[j] == c;
      }
    }
    InterleavedGroup(g, parts);
  }

  /** The same group with no whitespace between the tags. */
  lemma CompactGroupRenders(opType: string, opValue: string, leaves: seq<Node>, parts: seq<string>)
    requires |leaves| == |parts| > 0
    requires forall q {:trigger leaves[q]} | 0 <= q < |leaves| :: leaves[q].Element? && Walkable(leaves[q]) && RenderElement(leaves[q]) == Ok(parts[q])
    ensures var g := Group(opType, opValue, leaves);
      var ops := GroupOps(Some(opType), Some(opValue));
      && Walkable(g)
      && RenderElement(g) == Ok(Opener(ops) + Join(parts[..|parts| - 1], Separator(ops)) + parts[|parts| - 1] + Closer)
  {
    var g := Group(opType, opValue, leaves);
    GroupPropsRead(opType, opValue);
    assert g.props == Group(opType, opValue, []).props;
    forall c | c in g.children
      ensures Walkable(c)
    {
    }
    CompactGroup(g, parts);
  }

  /** A Representation whose only element child is the group `g`, laid
      out by an indenting serializer: the policy is `g`'s text inside the
      extra top-level "( … )". */
  lemma WrappedPolicy(g: Node, text: string)
    requires IsElementNamed(g, AttributesGroup) && Walkable(g) && RenderElement(g) == Ok(text)
    ensures RepWalkable(Rep(Pretty([g]))) && PolicyOf(Rep(Pretty([g]))) == Ok(Some("( " + text + " )"))
  {
    var rep := Rep(Pretty([g]));
    var ch := rep.children;
    PrettyAt([g], 0);
    PrettyAt([g], 1);
    PrettyAt([g], 2);
    assert ch == [Indent, g, Indent];
    assert FirstIndexOf(ch, AttributesGroup) == Some(1);
    assert RepWalkable(rep) && HasGroup(rep);
    TopLevelWrapper(rep, text);
    assert "( " + text + "" + " )" == "( " + text + " )";
  }

  /** The same without any whitespace in the Representation. */
  lemma CompactWrappedPolicy(g: Node, text: string)
    requires IsElementNamed(g, AttributesGroup) && Walkable(g) && RenderElement(g) == Ok(text)
    ensures RepWalkable(Rep([g])) && PolicyOf(Rep([g])) == Ok(Some("( " + text + " )"))
  {
    var rep := Rep([g]);
    assert FirstIndexOf(rep.children, AttributesGroup) == Some(0);
    assert RepWalkable(rep) && HasGroup(rep);
    TopLevelWrapper(rep, text);
    assert "( " + text + "" + " )" == "( " + text + " )";
  }

  lemma WrapText(x: string)
    ensures "( " + ("( " + x + " )") + " )" == "( ( " + x + " ) )"
  {
    var l := "( " + ("( " + x + " )") + " )";
    var r := "( ( " + x + " ) )";
    forall i | 0 <= i < |l|
      ensures l[i] == r[i]
    {
      if i < 4 {
      } else if i < 4 + |x| {
      } else {
      }
    }
  }

  lemma AndPairText(t1: string, t2: string)
    ensures "( " + ("( " + (t1 + " and " + t2) + " )") + " )" == "( ( " + t1 + " and " + t2 + " ) )"
  {
    WrapText(t1 + " and " + t2);
  }

  lemma CompactPairText(t1: string, t2: string)
    ensures "( " + ("( " + t1 + t2 + " )") + " )" == "( ( " + t1 + t2 + " ) )"
  {
    WrapText(t1 + t2);
  }

  lemma ThresholdText(n: string, t1: string, t2: string, t3: string)
    ensures "( " + (n + " of (" + (t1 + ", " + (t2 + ", " + t3)) + " )") + " )"
         == "( " + n + " of (" + t1 + ", " + t2 + ", " + t3 + " ) )"
  {
  }

  lemma AndExampleText(a: string, b: string, v: string)
    ensures "( ( " + a + " and " + (b + " " + "=" + " " + v) + " ) )" == "( ( " + a + " and " + b + " = " + v + " ) )"
  {
  }

  lemma CompactExampleText(a: string, b: string, v: string)
    ensures "( ( " + a + (b + " " + "=" + " " + v) + " ) )" == "( ( " + a + b + " = " + v + " ) )"
  {
  }

  lemma AndOps()
    ensures Opener(GroupOps(Some(LogicalType), Some(OperatorAnd))) == "( "
    ensures Separator(GroupOps(Some(LogicalType), Some(OperatorAnd))) == " and "
  {
  }

  lemma ThresholdOps(n: string)
    ensures Opener(GroupOps(Some(CompositionType), Some(n))) == n + " of ("
    ensures Separator(GroupOps(Some(CompositionType), Some(n))) == ", "
  {
  }

  /** Pretty-printed Logical AND over two rendered elements. */
  lemma AndPairPolicy(l1: Node, l2: Node, t1: string, t2: string)
    requires l1.Element? && Walkable(l1) && RenderElement(l1) == Ok(t1)
    requires l2.Element? && Walkable(l2) && RenderElement(l2) == Ok(t2)
    ensures var doc := Rep(Pretty([Group(LogicalType, OperatorAnd, Pretty([l1, l2]))]));
      RepWalkable(doc) && PolicyOf(doc) == Ok(Some("( ( " + t1 + " and " + t2 + " ) )"))
  {
    var parts := [t1, t2];
    var leaves := [l1, l2];
    var g := Group(LogicalType, OperatorAnd, Pretty(leaves));
    forall q | 0 <= q < |leaves|
      ensures leaves[q].Element? && Walkable(leaves[q]) && RenderElement(leaves[q]) == Ok(parts[q])
    {
      if q == 0 {
      } else {
      }
    }
    PrettyGroupRenders(LogicalType, OperatorAnd, leaves, parts);
    AndOps();
    assert parts[1..] == [t2];
    assert Join(parts, " and ") == t1 + " and " + t2;
    WrappedPolicy(g, "( " + (t1 + " and " + t2) + " )");
    AndPairText(t1, t2);
  }

  /** The same pair with no whitespace anywhere. */
  lemma CompactAndPairPolicy(l1: Node, l2: Node, t1: string, t2: string)
    requires l1.Element? && Walkable(l1) && RenderElement(l1) == Ok(t1)
    requires l2.Element? && Walkable(l2) && RenderElement(l2) == Ok(t2)
    ensures var doc := Rep([Group(LogicalType, OperatorAnd, [l1, l2])]);
      RepWalkable(doc) && PolicyOf(doc) == Ok(Some("( ( " + t1 + t2 + " ) )"))
  {
    var parts := [t1, t2];
    var leaves := [l1, l2];
    var g := Group(LogicalType, OperatorAnd, leaves);
    forall q | 0 <= q < |leaves|
      ensures leaves[q].Element? && Walkable(leaves[q]) && RenderElement(leaves[q]) == Ok(parts[q])
    {
      if q == 0 {
      } else {
      }
    }
    CompactGroupRenders(LogicalType, OperatorAnd, leaves, parts);
    AndOps();
    assert parts[..1] == [t1];
    assert Join(parts[..1], " and ") == t1;
    CompactWrappedPolicy(g, "( " + t1 + t2 + " )");
    CompactPairText(t1, t2);
  }

  /** Pretty-printed `n`-of-three threshold over three rendered elements. */
  lemma ThresholdTriplePolicy(n: string, l1: Node, l2: Node, l3: Node, t1: string, t2: string, t3: string)
    requires l1.Element? && Walkable(l1) && RenderElement(l1) == Ok(t1)
    requires l2.Element? && Walkable(l2) && RenderElement(l2) == Ok(t2)
    requires l3.Element? && Walkable(l3) && RenderElement(l3) == Ok(t3)
    ensures var doc := Rep(Pretty([Group(CompositionType, n, Pretty([l1, l2, l3]))]));
      RepWalkable(doc) && PolicyOf(doc) == Ok(Some("( " + n + " of (" + t1 + ", " + t2 + ", " + t3 + " ) )"))
  {
    var parts := [t1, t2, t3];
    var leaves := [l1, l2, l3];
    var g := Group(CompositionType, n, Pretty(leaves));
    forall q | 0 <= q < |leaves|
      ensures leaves[q].Element? && Walkable(leaves[q]) && RenderElement(leaves[q]) == Ok(parts[q])
    {
      if q == 0 {
      } else if q == 1 {
      } else {
      }
    }
    PrettyGroupRenders(CompositionType, n, leaves, parts);
    assert parts[1..] == [t2, t3] && parts[1..][1..] == [t3];
    assert Join(parts[1..], ", ") == t2 + ", " + t3;
    assert Join(parts, ", ") == t1 + ", " + (t2 + ", " + t3);
    ThresholdOps(n);
    WrappedPolicy(g, n + " of (" + (t1 + ", " + (t2 + ", " + t3)) + " )");
    ThresholdText(n, t1, t2, t3);
  }

  /** Logical AND over a wildcard leaf and a comparison, one tag per line:
      `( ( a and b = v ) )`. */
  lemma LogicalAndExample(a: string, b: string, v: string)
    requires ' ' !in a && ' ' !in b && ' ' !in v && v != "*"
    ensures var doc := Rep(Pretty([Group(LogicalType, OperatorAnd, Pretty([Leaf(a, "=", "*"), Leaf(b, "=", v)]))]));
      RepWalkable(doc) && PolicyOf(doc) == Ok(Some("( ( " + a + " and " + b + " = " + v + " ) )"))
  {
    LeafRenders(a, "=", "*");
    LeafRenders(b, "=", v);
    PlainLeafText(a, "=", "*");
    PlainLeafText(b, "=", v);
    AndPairPolicy(Leaf(a, "=", "*"), Leaf(b, "=", v), a, b + " " + "=" + " " + v);
    AndExampleText(a, b, v);
  }

  /** The same group with no whitespace: the separator test never fires
      for the last two children, so the leaves run together as
      `( ( ab = v ) )`. */
  lemma CompactLogicalExample(a: string, b: string, v: string)
    requires ' ' !in a && ' ' !in b && ' ' !in v && v != "*"
    ensures var doc := Rep([Group(LogicalType, OperatorAnd, [Leaf(a, "=", "*"), Leaf(b, "=", v)])]);
      RepWalkable(doc) && PolicyOf(doc) == Ok(Some("( ( " + a + b + " = " + v + " ) )"))
  {
    LeafRenders(a, "=", "*");
    LeafRenders(b, "=", v);
    PlainLeafText(a, "=", "*");
    PlainLeafText(b, "=", v);
    CompactAndPairPolicy(Leaf(a, "=", "*"), Leaf(b, "=", v), a, b + " " + "=" + " " + v);
    CompactExampleText(a, b, v);
  }

  /** A threshold over three wildcard leaves: the Composition opener has
      no blank after its parenthesis, `( n of (x, y, z ) )`. */
  lemma CompositionExample(n: string, x: string, y: string, z: string)
    requires ' ' !in x && ' ' !in y && ' ' !in z
    ensures var doc := Rep(Pretty([Group(CompositionType, n, Pretty([Leaf(x, "=", "*"), Leaf(y, "=", "*"), Leaf(z, "=", "*")]))]));
      RepWalkable(doc) && PolicyOf(doc) == Ok(Some("( " + n + " of (" + x + ", " + y + ", " + z + " ) )"))
  {
    LeafRenders(x, "=", "*");
    LeafRenders(y, "=", "*");
    LeafRenders(z, "=", "*");
    PlainLeafText(x, "=", "*");
    PlainLeafText(y, "=", "*");
    PlainLeafText(z, "=", "*");
    ThresholdTriplePolicy(n, Leaf(x, "=", "*"), Leaf(y, "=", "*"), Leaf(z, "=", "*"), x, y, z);
  }
}

=== FILE: policy_properties.dfy ===
/** Properties of the policy compiler: balanced output, the separator law
    for pretty-printed and for compact documents, the extra top-level
    wrapper and the reverse order of the policy list. */
module PolicyProperties {
  import opened Results
  import opened Xml
  import opened MpdNames
  import opened Spaces
  import opened Parens
  import opened PolicyCompiler

  // ---------------------------------------------------------------------
  // Balanced parentheses
  // ---------------------------------------------------------------------

  /** No text content and no property value of the subtree holds a parenthesis. */
  predicate NoParens(n: Node)
    decreases n
  {
    match n
    case Text(c) => ParenFree(c)
    case Element(_, props, children) =>
      && (forall p | p in props :: ParenFree(p.value))
      && (forall c | c in children :: NoParens(c))
  }

  lemma RemoveSpacesParenFree(s: string)
    requires ParenFree(s)
    ensures ParenFree(RemoveSpaces(s))
  {
  }

  lemma FieldValueParenFree(children: seq<Node>, tag: string)
    requires FieldsReadable(children) && FieldTag(tag)
    requires forall c | c in children :: NoParens(c)
    requires FieldValue(children, tag).Some?
    ensures ParenFree(FieldValue(children, tag).value)
  {
    var j := LastIndexOf(children, tag).value;
    var c := children[j];
    assert c in children;
    assert FieldValue(children, tag) == LastContent(c);
    var last := c.children[|c.children| - 1];
    assert last in c.children;
    assert NoParens(last) && last.Text?;
  }

  lemma LeafParenFree(attr: Node)
    requires attr.Element? && FieldsReadable(attr.children) && NoParens(attr)
    requires RenderAttribute(attr).Ok?
    ensures ParenFree(RenderAttribute(attr).value)
  {
    var ch := attr.children;
    FieldValueParenFree(ch, AttributeName);
    FieldValueParenFree(ch, AttributeOperator);
    FieldValueParenFree(ch, AttributeValue);
    var n := FieldValue(ch, AttributeName).value;
    var o := FieldValue(ch, AttributeOperator).value;
    var v := FieldValue(ch, AttributeValue).value;
    RemoveSpacesParenFree(n);
    RemoveSpacesParenFree(o);
    RemoveSpacesParenFree(v);
  }

  /** The operator values of a group hold no parenthesis. */
  predicate OpsParenFree(ops: GroupOps) {
    ops.opValue.Some? ==> ParenFree(ops.opValue.value)
  }

  lemma SeparatorParenFree(ops: GroupOps)
    requires OpsUsable(ops) && OpsParenFree(ops)
    ensures ParenFree(Separator(ops))
  {
  }

  lemma {:induction false} ElementBalanced(c: Node)
    requires c.Element? && Walkable(c) && NoParens(c)
    requires RenderElement(c).Ok?
    ensures Balanced(RenderElement(c).value)
    decreases c, |c.children| + 1, 0
  {
    if c.name == AttributesGroup {
      GroupBalanced(c, 0);
    } else {
      LeafParenFree(c);
      ParenFreeBalanced(RenderElement(c).value);
    }
  }

  lemma {:induction false} ChildBalanced(parent: Node, ops: GroupOps, i: nat)
    requires parent.Element? && i < |parent.children| && Walkable(parent.children[i]) && OpsUsable(ops)
    requires NoParens(parent.children[i]) && OpsParenFree(ops)
    requires RenderChild(parent, ops, i).Ok?
    ensures Balanced(RenderChild(parent, ops, i).value)
    decreases parent, |parent.children| - i, 0
  {
    var c := parent.children[i];
    if c.Text? {
      assert Depth("", 0) == Some(0);
    } else {
      ElementBalanced(c);
      var res := RenderElement(c).value;
      var sep := if i + 2 < |parent.children| then Separator(ops) else "";
      SeparatorParenFree(ops);
      ParenFreeBalanced(sep);
      BalancedConcat(res, sep);
    }
  }

  lemma {:induction false} FromBalanced(parent: Node, ops: GroupOps, i: nat)
    requires parent.Element? && i <= |parent.children| && OpsUsable(ops) && OpsParenFree(ops)
    requires forall j | i <= j < |parent.children| :: Walkable(parent.children[j]) && NoParens(parent.children[j])
    requires RenderFrom(parent, ops, i).Ok?
    ensures Balanced(RenderFrom(parent, ops, i).value)
    decreases parent, |parent.children| - i, 1
  {
    if i == |parent.children| {
      assert Depth("", 0) == Some(0);
    } else {
      ChildBalanced(parent, ops, i);
      FromBalanced(parent, ops, i + 1);
      BalancedConcat(RenderChild(parent, ops, i).value, RenderFrom(parent, ops, i + 1).value);
    }
  }

  /** A compiled group is balanced when no text and no property value of
      the walked subtree holds a parenthesis. */
  lemma {:induction false} GroupBalanced(parent: Node, from: nat)
    requires SiblingsWalkable(parent, from)
    requires parent.name == AttributesGroup ==> forall p | p in parent.props :: ParenFree(p.value)
    requires forall j | from <= j < |parent.children| :: NoParens(parent.children[j])
    requires RenderGroup(parent, from).Ok?
    ensures Balanced(RenderGroup(parent, from).value)
    decreases parent, |parent.children| - from, 2
  {
    var ops := GroupOpsOf(parent).value;
    if parent.name == AttributesGroup {
      var j := LastPropIndex(parent.props, OperatorValueProp);
      if j.Some? {
        assert parent.props[j.value] in parent.props;
      }
    }
    assert OpsParenFree(ops);
    FromBalanced(parent, ops, from);
    var body := RenderFrom(parent, ops, from).value;
    if ops.opType == Some(CompositionType) {
      var v := ops.opValue.value;
      assert Opener(ops) + body + Closer == (v + " of ") + "(" + body + " )";
      BalancedWrap(v + " of ", body);
    } else {
      assert Opener(ops) + body + Closer == "" + "( " + body + " )";
      BalancedWrap("", body);
    }
  }

  /** The children the top-level walk visits, the first AttributesGroup
      child and the siblings after it, hold no parenthesis. Other children,
      such as a BaseURL before the group, and the node's own properties
      are never read. */
  predicate WalkedParenFree(rep: Node)
    requires rep.Element?
  {
    match FirstIndexOf(rep.children, AttributesGroup)
    case None => true
    case Some(k) => forall j | k <= j < |rep.children| :: NoParens(rep.children[j])
  }

  /** Every policy of a Representation node is balanced when the children
      the walk visits are free of parentheses. */
  lemma PolicyBalanced(rep: Node)
    requires RepWalkable(rep) && WalkedParenFree(rep)
    requires PolicyOf(rep).Ok? && PolicyOf(rep).value.Some?
    ensures Balanced(PolicyOf(rep).value.value)
  {
    var k := FirstIndexOf(rep.children, AttributesGroup).value;
    GroupBalanced(rep, k);
  }

  // ---------------------------------------------------------------------
  // Separators
  // ---------------------------------------------------------------------

  function Join(parts: seq<string>, sep: string): string
    decreases |parts|
  {
    if |parts| == 0 then ""
    else if |parts| == 1 then parts[0]
    else parts[0] + sep + Join(parts[1..], sep)
  }

  /** A pretty-printed child list: whitespace text nodes before, between and
      after the element children. */
  predicate Interleaved(children: seq<Node>) {
    && |children| % 2 == 1
    && forall j | 0 <= j < |children| :: children[j].Text? <==> j % 2 == 0
  }

  lemma ConcatAssoc(a: string, b: string, c: string)
    ensures a + (b + c) == (a + b) + c
  {
  }

  /** A text child adds nothing to the rendering. */
  lemma FromText(parent: Node, ops: GroupOps, i: nat)
    requires parent.Element? && OpsUsable(ops) && i < |parent.children|
    requires forall j | i <= j < |parent.children| :: Walkable(parent.children[j])
    requires parent.children[i].Text?
    ensures RenderFrom(parent, ops, i) == RenderFrom(parent, ops, i + 1)
  {
    assert RenderChild(parent, ops, i) == Ok("");
    if RenderFrom(parent, ops, i + 1).Ok? {
      assert "" + RenderFrom(parent, ops, i + 1).value == RenderFrom(parent, ops, i + 1).value;
    }
  }

  /** An element child adds its rendering, then the separator when two or
      more siblings follow it. */
  lemma FromElement(parent: Node, ops: GroupOps, lo: nat, i: nat, p: string, rest: string)
    requires parent.Element? && OpsUsable(ops) && lo <= i < |parent.children|
    requires forall j | lo <= j < |parent.children| :: Walkable(parent.children[j])
    requires parent.children[i].Element? && RenderElement(parent.children[i]) == Ok(p)
    requires RenderFrom(parent, ops, i + 1) == Ok(rest)
    ensures RenderFrom(parent, ops, i) == Ok(p + (if i + 2 < |parent.children| then Separator(ops) else "") + rest)
  {
  }

  lemma InterleavedAt(children: seq<Node>, m: nat)
    requires Interleaved(children) && 2 * m < |children|
    ensures children[2 * m].Text?
    ensures 2 * m + 1 < |children| ==> children[2 * m + 1].Element? && 2 * m + 2 < |children|
  {
    assert (2 * m) % 2 == 0;
    if 2 * m + 1 < |children| {
      assert (2 * m + 1) % 2 == 1;
    }
  }

  /** Unfolding `Join` at the front of a suffix. */
  lemma JoinStep(parts: seq<string>, m: nat, sep: string)
    requires m < |parts|
    ensures Join(parts[m..], sep)
      == parts[m] + (if m + 1 < |parts| then sep else "") + Join(parts[m + 1..], sep)
  {
    if m + 1 == |parts| {
      assert parts[m..] == [parts[m]];
      assert parts[m + 1..] == [];
      assert parts[m] + "" + "" == parts[m];
    } else {
      assert parts[m..][1..] == parts[m + 1..];
    }
  }

  /** The text node at `2 * m` adds nothing. */
  lemma InterleavedTextStep(parent: Node, ops: GroupOps, m: nat)
    requires parent.Element? && OpsUsable(ops) && 2 * m < |parent.children|
    requires parent.children[2 * m].Text?
    requires forall j | 2 * m <= j < |parent.children| :: Walkable(parent.children[j])
    ensures RenderFrom(parent, ops, 2 * m) == RenderFrom(parent, ops, 2 * m + 1)
  {
    FromText(parent, ops, 2 * m);
  }

  /** The element at `2 * m + 1` adds its rendering and, unless it is the
      last element, the separator. */
  lemma InterleavedElementStep(parent: Node, ops: GroupOps, parts: seq<string>, m: nat)
    requires parent.Element? && OpsUsable(ops)
    requires |parent.children| == 2 * |parts| + 1 && m < |parts|
    requires parent.children[2 * m + 1].Element?
    requires forall j | 2 * m <= j < |parent.children| :: Walkable(parent.children[j])
    requires RenderElement(parent.children[2 * m + 1]) == Ok(parts[m])
    requires RenderFrom(parent, ops, 2 * m + 2) == Ok(Join(parts[m + 1..], Separator(ops)))
    ensures RenderFrom(parent, ops, 2 * m + 1)
      == Ok(parts[m] + (if m + 1 < |parts| then Separator(ops) else "") + Join(parts[m + 1..], Separator(ops)))
  {
    var rest := Join(parts[m + 1..], Separator(ops));
    assert (2 * m + 1 + 2 < |parent.children|) == (m + 1 < |parts|);
    assert RenderChild(parent, ops, 2 * m + 1) == Ok(parts[m] + (if m + 1 < |parts| then Separator(ops) else ""));
  }

  lemma InterleavedStep(parent: Node, ops: GroupOps, parts: seq<string>, m: nat)
    requires parent.Element? && OpsUsable(ops)
    requires |parent.children| == 2 * |parts| + 1 && m < |parts|
    requires parent.children[2 * m].Text? && parent.children[2 * m + 1].Element?
    requires forall j | 2 * m <= j < |parent.children| :: Walkable(parent.children[j])
    requires RenderElement(parent.children[2 * m + 1]) == Ok(parts[m])
    requires RenderFrom(parent, ops, 2 * m + 2) == Ok(Join(parts[m + 1..], Separator(ops)))
    ensures RenderFrom(parent, ops, 2 * m) == Ok(Join(parts[m..], Separator(ops)))
  {
    InterleavedTextStep(parent, ops, m);
    InterleavedElementStep(parent, ops, parts, m);
    JoinStep(parts, m, Separator(ops));
  }

  /** The closing text node of an interleaved list renders as nothing. */
  lemma InterleavedEnd(parent: Node, ops: GroupOps, parts: seq<string>)
    requires parent.Element? && OpsUsable(ops) && Interleaved(parent.children)
    requires forall j | 0 <= j < |parent.children| :: Walkable(parent.children[j])
    requires |parts| == |parent.children| / 2
    ensures RenderFrom(parent, ops, 2 * |parts|) == Ok(Join(parts[|parts|..], Separator(ops)))
  {
    var m := |parts|;
    assert parent.children[2 * m].Text? by {
      InterleavedAt(parent.children, m);
    }
    FromText(parent, ops, 2 * m);
    assert parts[m..] == [];
  }

  lemma {:induction false} InterleavedFrom(parent: Node, ops: GroupOps, parts: seq<string>, m: nat)
    requires parent.Element? && OpsUsable(ops) && Interleaved(parent.children)
    requires forall j | 0 <= j < |parent.children| :: Walkable(parent.children[j])
    requires |parts| == |parent.children| / 2 && m <= |parts|
    requires forall q {:trigger RenderElement(parent.children[2 * q + 1])} | 0 <= q < |parts| :: RenderElement(parent.children[2 * q + 1]) == Ok(parts[q])
    ensures RenderFrom(parent, ops, 2 * m) == Ok(Join(parts[m..], Separator(ops)))
    decreases |parts| - m
  {
    if m == |parts| {
      InterleavedEnd(parent, ops, parts);
    } else {
      assert RenderFrom(parent, ops, 2 * m + 2) == Ok(Join(parts[m + 1..], Separator(ops))) by {
        InterleavedFrom(parent, ops, parts, m + 1);
        assert 2 * (m + 1) == 2 * m + 2;
      }
      assert RenderElement(parent.children[2 * m + 1]) == Ok(parts[m]);
      assert |parent.children| == 2 * |parts| + 1 by {
        assert |parent.children| % 2 == 1;
      }
      InterleavedAt(parent.children, m);
      InterleavedStep(parent, ops, parts, m);
    }
  }

  /** The compact-layout join at position `i`: separators after every
      rendering except the last two. */
  lemma CompactStep(parts: seq<string>, i: nat, sep: string)
    requires i < |parts| - 1
    ensures Join(parts[i..|parts| - 1], sep) + parts[|parts| - 1]
      == parts[i] + (if i + 2 < |parts| then sep else "") + (Join(parts[i + 1..|parts| - 1], sep) + parts[|parts| - 1])
  {
    var n := |parts|;
    var last := parts[n - 1];
    var joined := Join(parts[i + 1..n - 1], sep);
    if i == n - 2 {
      assert parts[i..n - 1] == [parts[i]];
      assert parts[i + 1..n - 1] == [];
      assert parts[i] + "" + ("" + last) == parts[i] + last;
    } else {
      assert parts[i..n - 1][1..] == parts[i + 1..n - 1];
      assert Join(parts[i..n - 1], sep) == parts[i] + sep + joined;
      ConcatAssoc(parts[i] + sep, joined, last);
    }
  }

  lemma CompactBase(parts: seq<string>, sep: string)
    requires |parts| > 0
    ensures Join(parts[|parts| - 1..|parts| - 1], sep) + parts[|parts| - 1] == parts[|parts| - 1] + "" + ""
  {
    assert parts[|parts| - 1..|parts| - 1] == [];
  }

  /** The last element of a compact list renders alone. */
  lemma CompactLast(parent: Node, ops: GroupOps, parts: seq<string>)
    requires parent.Element? && OpsUsable(ops)
    requires forall j | 0 <= j < |parent.children| :: Walkable(parent.children[j])
    requires |parts| == |parent.children| > 0
    requires forall q {:trigger parent.children[q]} | 0 <= q < |parts| :: parent.children[q].Element? && RenderElement(parent.children[q]) == Ok(parts[q])
    ensures RenderFrom(parent, ops, |parts| - 1) == Ok(Join(parts[|parts| - 1..|parts| - 1], Separator(ops)) + parts[|parts| - 1])
  {
    var i := |parts| - 1;
    assert parent.children[i].Element? && RenderElement(parent.children[i]) == Ok(parts[i]);
    assert RenderFrom(parent, ops, i + 1) == Ok("");
    FromElement(parent, ops, 0, i, parts[i], "");
    CompactBase(parts, Separator(ops));
  }

  /** Element `i` of a compact list in front of the rendering of the rest. */
  lemma CompactElement(parent: Node, ops: GroupOps, parts: seq<string>, i: nat)
    requires parent.Element? && OpsUsable(ops)
    requires forall j | 0 <= j < |parent.children| :: Walkable(parent.children[j])
    requires |parts| == |parent.children| && i < |parts| - 1
    requires forall q {:trigger parent.children[q]} | 0 <= q < |parts| :: parent.children[q].Element? && RenderElement(parent.children[q]) == Ok(parts[q])
    requires RenderFrom(parent, ops, i + 1) == Ok(Join(parts[i + 1..|parts| - 1], Separator(ops)) + parts[|parts| - 1])
    ensures RenderFrom(parent, ops, i) == Ok(Join(parts[i..|parts| - 1], Separator(ops)) + parts[|parts| - 1])
  {
    assert parent.children[i].Element? && RenderElement(parent.children[i]) == Ok(parts[i]);
    assert RenderChild(parent, ops, i) == Ok(parts[i] + (if i + 2 < |parts| then Separator(ops) else ""));
    CompactStep(parts, i, Separator(ops));
  }

  lemma {:induction false} CompactFrom(parent: Node, ops: GroupOps, parts: seq<string>, i: nat)
    requires parent.Element? && OpsUsable(ops)
    requires forall j | 0 <= j < |parent.children| :: Walkable(parent.children[j])
    requires |parts| == |parent.children| && i < |parts|
    requires forall q {:trigger parent.children[q]} | 0 <= q < |parts| :: parent.children[q].Element? && RenderElement(parent.children[q]) == Ok(parts[q])
    ensures RenderFrom(parent, ops, i) == Ok(Join(parts[i..|parts| - 1], Separator(ops)) + parts[|parts| - 1])
    decreases |parts| - i
  {
    if i == |parts| - 1 {
      CompactLast(parent, ops, parts);
    } else {
      CompactFrom(parent, ops, parts, i + 1);
      CompactElement(parent, ops, parts, i);
    }
  }

  /** In a pretty-printed group the element renderings are joined by the
      separator: one separator between consecutive elements and none after
      the last. */
  lemma InterleavedGroup(g: Node, parts: seq<string>)
    requires IsElementNamed(g, AttributesGroup) && Walkable(g) && Interleaved(g.children)
    requires forall k | 0 <= k < |g.props| :: KnownGroupProp(g.props[k])
    requires |parts| == |g.children| / 2
    requires forall q {:trigger RenderElement(g.children[2 * q + 1])} | 0 <= q < |parts| :: RenderElement(g.children[2 * q + 1]) == Ok(parts[q])
    ensures var ops := GroupOps(LastValueOf(g.props, OperatorTypeProp), LastValueOf(g.props, OperatorValueProp));
      RenderGroup(g, 0) == Ok(Opener(ops) + Join(parts, Separator(ops)) + Closer)
  {
    var ops := GroupOpsOf(g).value;
    forall j | 0 <= j < |g.children|
      ensures Walkable(g.children[j])
    {
      assert g.children[j] in g.children;
    }
    InterleavedFrom(g, ops, parts, 0);
  }

  /** In a group written without whitespace between its elements the
      separator rule counts siblings, not elements: the last two renderings
      are emitted with nothing between them. */
  lemma CompactGroup(g: Node, parts: seq<string>)
    requires IsElementNamed(g, AttributesGroup) && Walkable(g)
    requires forall k | 0 <= k < |g.props| :: KnownGroupProp(g.props[k])
    requires |parts| == |g.children| > 0
    requires forall q {:trigger g.children[q]} | 0 <= q < |parts| :: g.children[q].Element? && RenderElement(g.children[q]) == Ok(parts[q])
    ensures var ops := GroupOps(LastValueOf(g.props, OperatorTypeProp), LastValueOf(g.props, OperatorValueProp));
      RenderGroup(g, 0) == Ok(Opener(ops) + Join(parts[..|parts| - 1], Separator(ops)) + parts[|parts| - 1] + Closer)
  {
    var ops := GroupOpsOf(g).value;
    forall j | 0 <= j < |g.children|
      ensures Walkable(g.children[j])
    {
      assert g.children[j] in g.children;
    }
    CompactFrom(g, ops, parts, 0);
    var n := |parts|;
    ConcatAssoc(Opener(ops), Join(parts[..n - 1], Separator(ops)), parts[n - 1]);
    assert parts[0..n - 1] == parts[..n - 1];
  }

  /** An element child that is neither a group nor an Attribute ends the
      run with BAD FORMAT once the siblings before it have rendered. */
  lemma {:induction false} BadChildExits(parent: Node, ops: GroupOps, i: nat, j: nat)
    requires parent.Element? && OpsUsable(ops) && i <= j < |parent.children|
    requires forall m | i <= m < |parent.children| :: Walkable(parent.children[m])
    requires forall m | i <= m < j :: RenderChild(parent, ops, m).Ok?
    requires parent.children[j].Element?
    requires parent.children[j].name != AttributesGroup && parent.children[j].name != AttributeElement
    ensures RenderFrom(parent, ops, i) == Exit(BadNode)
    decreases j - i
  {
    if i < j {
      BadChildExits(parent, ops, i + 1, j);
    }
  }

  // ---------------------------------------------------------------------
  // Top-level call shape
  // ---------------------------------------------------------------------

  lemma {:induction false} TextOnlyRendersEmpty(parent: Node, ops: GroupOps, i: nat)
    requires parent.Element? && OpsUsable(ops) && i <= |parent.children|
    requires forall j | i <= j < |parent.children| :: parent.children[j].Text?
    ensures RenderFrom(parent, ops, i) == Ok("")
    decreases |parent.children| - i
  {
    if i < |parent.children| {
      TextOnlyRendersEmpty(parent, ops, i + 1);
      FromText(parent, ops, i);
    }
  }

  /** The group is handed to the compiler as a child of its Representation:
      the policy gets an extra "( ... )" around the group's own rendering,
      and ", " before the closer when two or more text nodes follow it. */
  lemma TopLevelWrapper(rep: Node, g: string)
    requires RepWalkable(rep) && HasGroup(rep)
    requires var k := FirstIndexOf(rep.children, AttributesGroup).value;
      && RenderElement(rep.children[k]) == Ok(g)
      && forall j | k < j < |rep.children| :: rep.children[j].Text?
    ensures var k := FirstIndexOf(rep.children, AttributesGroup).value;
      PolicyOf(rep) == Ok(Some("( " + g + (if k + 2 < |rep.children| then ", " else "") + " )"))
  {
    var k := FirstIndexOf(rep.children, AttributesGroup).value;
    var sep := if k + 2 < |rep.children| then ", " else "";
    TextOnlyRendersEmpty(rep, NoOps, k + 1);
    assert GroupOpsOf(rep) == Ok(NoOps);
    assert RenderChild(rep, NoOps, k) == Ok(g + sep);
    assert RenderFrom(rep, NoOps, k) == Ok(g + sep + "");
    assert g + sep + "" == g + sep;
    assert RenderGroup(rep, k) == Ok("( " + (g + sep) + " )");
    assert "( " + (g + sep) + " )" == "( " + g + sep + " )";
  }

  /** An element sibling after the group that is not a group or Attribute
      makes the whole document exit with BAD FORMAT. */
  lemma TopLevelSiblingExits(rep: Node, j: nat)
    requires RepWalkable(rep) && HasGroup(rep)
    requires var k := FirstIndexOf(rep.children, AttributesGroup).value;
      && k < j < |rep.children|
      && RenderElement(rep.children[k]).Ok?
      && (forall m | k < m < j :: rep.children[m].Text?)
      && rep.children[j].Element?
      && rep.children[j].name != AttributesGroup && rep.children[j].name != AttributeElement
    ensures PolicyOf(rep) == Exit(BadNode)
  {
    var k := FirstIndexOf(rep.children, AttributesGroup).value;
    assert RenderChild(rep, NoOps, k).Ok?;
    BadChildExits(rep, NoOps, k, j);
  }

  // ---------------------------------------------------------------------
  // Policy list
  // ---------------------------------------------------------------------

  /** With a group in the last node, the first policy is that node's and
      the others are those of the nodes before it. */
  lemma PoliciesLastFirst(reps: seq<Node>)
    requires |reps| > 0
    requires forall j | 0 <= j < |reps| :: RepWalkable(reps[j])
    requires HasGroup(reps[|reps| - 1])
    requires Policies(reps).Ok?
    ensures PolicyOf(reps[|reps| - 1]).Ok? && Policies(reps[..|reps| - 1]).Ok?
    ensures Policies(reps).value
      == [PolicyOf(reps[|reps| - 1]).value.value] + Policies(reps[..|reps| - 1]).value
  {
  }

  /** When every node carries a group, policy `k` comes from node
      `|reps| - 1 - k`. */
  lemma {:induction false} PoliciesReverseOrder(reps: seq<Node>, ps: seq<string>)
    requires forall j | 0 <= j < |reps| :: RepWalkable(reps[j]) && HasGroup(reps[j])
    requires Policies(reps) == Ok(ps)
    ensures |ps| == |reps|
    ensures forall k | 0 <= k < |reps| :: PolicyOf(reps[|reps| - 1 - k]) == Ok(Some(ps[k]))
    decreases |reps|
  {
    if |reps| > 0 {
      var n := |reps|;
      var init := reps[..n - 1];
      PoliciesLastFirst(reps);
      var rest := Policies(init).value;
      PoliciesReverseOrder(init, rest);
      assert ps == [PolicyOf(reps[n - 1]).value.value] + rest;
      assert |ps| == 1 + |rest| == n;
      forall k | 0 <= k < n
        ensures PolicyOf(reps[n - 1 - k]) == Ok(Some(ps[k]))
      {
        if k == 0 {
          assert ps[0] == PolicyOf(reps[n - 1]).value.value;
        } else {
          var m := n - 1 - k;
          assert |init| - 1 - (k - 1) == m && init[m] == reps[m];
          assert ps[k] == rest[k - 1];
        }
      }
    }
  }

  /** The outcome of compiling each node, in document order. */
  function Outcomes(reps: seq<Node>): (r: seq<Result<Option<string>>>)
    requires forall j | 0 <= j < |reps| :: RepWalkable(reps[j])
    ensures |r| == |reps| && forall j | 0 <= j < |reps| :: r[j] == PolicyOf(reps[j])
  {
    seq(|reps|, j requires 0 <= j < |reps| && RepWalkable(reps[j]) => PolicyOf(reps[j]))
  }

  lemma OutcomesInit(reps: seq<Node>)
    requires |reps| > 0
    requires forall j | 0 <= j < |reps| :: RepWalkable(reps[j])
    ensures Outcomes(reps)[..|reps| - 1] == Outcomes(reps[..|reps| - 1])
  {
    var init := reps[..|reps| - 1];
    assert forall j | 0 <= j < |init| :: init[j] == reps[j];
  }

  /** The walk of `parse_nodes_for_policies` over given per-node outcomes:
      from the last to the first, stopping at the first exit met. */
  function Collect(outs: seq<Result<Option<string>>>): Result<seq<string>>
    decreases |outs|
  {
    if |outs| == 0 then Ok([])
    else
      var p :- outs[|outs| - 1];
      var rest :- Collect(outs[..|outs| - 1]);
      Ok((if p.Some? then [p.value] else []) + rest)
  }

  /** The policies present among the outcomes, in document order. */
  function Present(outs: seq<Result<Option<string>>>): seq<string>
    decreases |outs|
  {
    if |outs| == 0 then []
    else (if outs[0].Ok? && outs[0].value.Some? then [outs[0].value.value] else []) + Present(outs[1..])
  }

  function Reversed(s: seq<string>): (r: seq<string>)
    ensures |r| == |s| && forall k | 0 <= k < |s| :: r[k] == s[|s| - 1 - k]
  {
    seq(|s|, k requires 0 <= k < |s| => s[|s| - 1 - k])
  }

  lemma {:induction false} PresentSnoc(outs: seq<Result<Option<string>>>)
    requires |outs| > 0
    ensures var o := outs[|outs| - 1];
      Present(outs) == Present(outs[..|outs| - 1]) + (if o.Ok? && o.value.Some? then [o.value.value] else [])
    decreases |outs|
  {
    if |outs| > 1 {
      var tail := outs[1..];
      assert tail[..|tail| - 1] == outs[..|outs| - 1][1..];
      assert tail[|tail| - 1] == outs[|outs| - 1];
      PresentSnoc(tail);
    }
  }

  lemma ReversedSnoc(s: seq<string>, c: seq<string>)
    requires |c| <= 1
    ensures Reversed(s + c) == c + Reversed(s)
  {
    var l := Reversed(s + c);
    var r := c + Reversed(s);
    assert |l| == |r|;
    forall k | 0 <= k < |l|
      ensures l[k] == r[k]
    {
      if k >= |c| {
        assert r[k] == Reversed(s)[k - |c|];
      }
    }
  }

  /** The backward walk keeps the present policies in reverse order and
      stops at the last exit. */
  lemma {:induction false} CollectInReverse(outs: seq<Result<Option<string>>>)
    ensures Collect(outs).Ok? <==> forall j | 0 <= j < |outs| :: outs[j].Ok?
    ensures Collect(outs).Ok? ==> Collect(outs).value == Reversed(Present(outs))
    ensures Collect(outs).Exit? ==>
      exists j | 0 <= j < |outs| ::
        && outs[j] == Exit(Collect(outs).code)
        && forall k | j < k < |outs| :: outs[k].Ok?
    decreases |outs|
  {
    if |outs| > 0 {
      var n := |outs|;
      var init := outs[..n - 1];
      var last := outs[n - 1];
      if last.Ok? {
        CollectInReverse(init);
        if Collect(init).Exit? {
          var j :| 0 <= j < |init| && init[j] == Exit(Collect(init).code)
                   && forall k | j < k < |init| :: init[k].Ok?;
          assert outs[j] == init[j];
          forall k | j < k < n
            ensures outs[k].Ok?
          {
            if k < n - 1 {
              assert outs[k] == init[k];
            }
          }
        } else {
          assert forall j | 0 <= j < n - 1 :: outs[j] == init[j];
          PresentSnoc(outs);
          ReversedSnoc(Present(init), if last.value.Some? then [last.value.value] else []);
        }
      }
    }
  }

  /** `parse_nodes_for_policies` is the backward walk over the nodes' outcomes. */
  lemma {:induction false} PoliciesCollect(reps: seq<Node>)
    requires forall j | 0 <= j < |reps| :: RepWalkable(reps[j])
    ensures Policies(reps) == Collect(Outcomes(reps))
    decreases |reps|
  {
    if |reps| > 0 {
      var n := |reps|;
      var init := reps[..n - 1];
      PoliciesCollect(init);
      OutcomesInit(reps);
    }
  }

  /** A node without a group adds no policy and leaves the others as they are. */
  lemma PoliciesSkip(reps: seq<Node>)
    requires |reps| > 0
    requires forall j | 0 <= j < |reps| :: RepWalkable(reps[j])
    requires !HasGroup(reps[|reps| - 1])
    ensures Policies(reps) == Policies(reps[..|reps| - 1])
  {
    var n := |reps|;
    var init := reps[..n - 1];
    var outs := Outcomes(reps);
    assert PolicyOf(reps[n - 1]) == Ok(None);
    OutcomesInit(reps);
    PoliciesCollect(reps);
    PoliciesCollect(init);
    CollectSkip(outs);
  }

  /** A trailing outcome without a policy is skipped by the backward walk. */
  lemma CollectSkip(outs: seq<Result<Option<string>>>)
    requires |outs| > 0 && outs[|outs| - 1] == Ok(None)
    ensures Collect(outs) == Collect(outs[..|outs| - 1])
  {
    match Collect(outs[..|outs| - 1])
    case Exit(code) =>
    case Ok(rest) =>
      assert [] + rest == rest;
  }

  /** `parse_nodes_for_policies` in general: the list is the nodes'
      policies in reverse document order, group-less nodes adding none;
      it ends with an exit exactly when some node exits, and then with
      the code of the last such node, since the walk starts at the end. */
  lemma PoliciesInReverse(reps: seq<Node>)
    requires forall j | 0 <= j < |reps| :: RepWalkable(reps[j])
    ensures Policies(reps).Ok? <==> forall j | 0 <= j < |reps| :: PolicyOf(reps[j]).Ok?
    ensures Policies(reps).Ok? ==> Policies(reps).value == Reversed(Present(Outcomes(reps)))
    ensures Policies(reps).Exit? ==>
      exists j | 0 <= j < |reps| ::
        && PolicyOf(reps[j]) == Exit(Policies(reps).code)
        && forall k | j < k < |reps| :: PolicyOf(reps[k]).Ok?
  {
    PoliciesCollect(reps);
    CollectInReverse(Outcomes(reps));
  }
}

=== FILE: results.dfy ===
/** Failure-compatible wrappers used throughout the model.

    `Result` stands for a computation of the policy compiler that either
    produces a value or terminates the process through `exit(code)`.
 */
module Results {

  datatype Option<+T> = None | Some(value: T) {

    /** The value if present, otherwise `other`. */
    function OrElse(other: Option<T>): Option<T> {
      if Some? then this else other
    }
  }

  datatype Result<+T> = Ok(value: T) | Exit(code: int) {

    predicate IsFailure() {
      Exit?
    }

    function PropagateFailure<U>(): Result<U>
      requires Exit?
    {
      Exit(code)
    }

    function Extract(): T
      requires Ok?
    {
      value
    }
  }
}

=== FILE: spaces.dfy ===
/** `remove_spaces` of mpd_policy.c: deletes every ' ' character and keeps
    every other character in order. */
module Spaces {

  function RemoveSpaces(s: string): (r: string)
    ensures ' ' !in r
    ensures |r| <= |s|
    ensures forall c :: c in r ==> c in s
    decreases |s|
  {
    if |s| == 0 then []
    else (if s[0] == ' ' then [] else [s[0]]) + RemoveSpaces(s[1..])
  }

  /** `sub` is obtained from `s` by deleting some characters. */
  ghost predicate IsSubsequence(sub: string, s: string)
    decreases |s|
  {
    if |s| == 0 then |sub| == 0
    else
      || (|sub| > 0 && sub[0] == s[0] && IsSubsequence(sub[1..], s[1..]))
      || IsSubsequence(sub, s[1..])
  }

  /** The two-pointer loop of the source: `p2` skips runs of spaces, every
      other character is copied to the write position. */
  method RemoveSpacesLoop(s: string) returns (r: string)
    ensures r == RemoveSpaces(s)
  {
    r := [];
    var p2 := 0;
    while p2 < |s|
      invariant 0 <= p2 <= |s|
      invariant r == RemoveSpaces(s[..p2])
    {
      while p2 < |s| && s[p2] == ' '
        invariant 0 <= p2 <= |s|
        invariant r == RemoveSpaces(s[..p2])
      {
        RemoveSpacesAppend(s[..p2], [s[p2]]);
        assert s[..p2 + 1] == s[..p2] + [s[p2]];
        p2 := p2 + 1;
      }
      if p2 < |s| {
        RemoveSpacesAppend(s[..p2], [s[p2]]);
        assert s[..p2 + 1] == s[..p2] + [s[p2]];
        r := r + [s[p2]];
        p2 := p2 + 1;
      }
    }
    assert s[..p2] == s;
  }

  lemma {:induction false} RemoveSpacesAppend(a: string, b: string)
    ensures RemoveSpaces(a + b) == RemoveSpaces(a) + RemoveSpaces(b)
    decreases |a|
  {
    if |a| == 0 {
      assert a + b == b;
    } else {
      assert (a + b)[1..] == a[1..] + b;
      RemoveSpacesAppend(a[1..], b);
    }
  }

  /** A string without spaces is left as it is. */
  lemma {:induction false} RemoveSpacesKeepsSpaceFree(s: string)
    requires ' ' !in s
    ensures RemoveSpaces(s) == s
    decreases |s|
  {
    if |s| > 0 {
      RemoveSpacesKeepsSpaceFree(s[1..]);
      assert s == [s[0]] + s[1..];
    }
  }

  /** Applying the filter twice is applying it once. */
  lemma RemoveSpacesIdempotent(s: string)
    ensures RemoveSpaces(RemoveSpaces(s)) == RemoveSpaces(s)
  {
    RemoveSpacesKeepsSpaceFree(RemoveSpaces(s));
  }

  /** Order is kept: the result is obtained from the input by deletions. */
  lemma {:induction false} RemoveSpacesKeepsOrder(s: string)
    ensures IsSubsequence(RemoveSpaces(s), s)
    decreases |s|
  {
    if |s| > 0 {
      RemoveSpacesKeepsOrder(s[1..]);
      if s[0] != ' ' {
        assert RemoveSpaces(s) == [s[0]] + RemoveSpaces(s[1..]);
        assert RemoveSpaces(s)[1..] == RemoveSpaces(s[1..]);
      } else {
        assert RemoveSpaces(s) == RemoveSpaces(s[1..]);
      }
    }
  }

  /** Only spaces are deleted: every other character keeps its number of
      occurrences, and no space survives. */
  lemma {:induction false} RemoveSpacesKeepsOthers(s: string)
    ensures forall c :: c != ' ' ==> multiset(RemoveSpaces(s))[c] == multiset(s)[c]
    ensures multiset(RemoveSpaces(s))[' '] == 0
    decreases |s|
  {
    if |s| > 0 {
      RemoveSpacesKeepsOthers(s[1..]);
      assert s == [s[0]] + s[1..];
      assert multiset(s) == multiset{s[0]} + multiset(s[1..]);
      if s[0] != ' ' {
        assert RemoveSpaces(s) == [s[0]] + RemoveSpaces(s[1..]);
        assert multiset(RemoveSpaces(s)) == multiset{s[0]} + multiset(RemoveSpaces(s[1..]));
      } else {
        assert RemoveSpaces(s) == RemoveSpaces(s[1..]);
      }
    }
  }
}

=== FILE: xml.dfy ===
/** The part of a parsed XML document the policy compiler walks.

    An element has a name, a property (XML attribute) list and a child
    sequence; every other node kind (text, whitespace, comment) carries only
    content. Whitespace text nodes stay in the child sequence: the compiler's
    separator rule depends on them.
 */
module Xml {
  import opened Results

  datatype Prop = Prop(name: string, value: string)

  datatype Node =
    | Element(name: string, props: seq<Prop>, children: seq<Node>)
    | Text(content: string)

  predicate IsElementNamed(n: Node, tag: string) {
    n.Element? && n.name == tag
  }

  /** `node->last->content`: the content of the last child, or NULL (None)
      when that child is an element. A node without children would make the
      source dereference NULL, hence the precondition. */
  function LastContent(n: Node): (r: Option<string>)
    requires n.Element? && |n.children| > 0
    ensures r.Some? <==> n.children[|n.children| - 1].Text?
    ensures r.Some? ==> r.value == n.children[|n.children| - 1].content
  {
    match n.children[|n.children| - 1]
    case Text(c) => Some(c)
    case Element(_, _, _) => None
  }

  /** `xmlNodeSetContent`: replaces every child of `n` by one text node. */
  function SetContent(n: Node, s: string): (r: Node)
    requires n.Element?
    ensures r.Element? && r.name == n.name && r.props == n.props
    ensures |r.children| == 1 && LastContent(r) == Some(s)
  {
    Element(n.name, n.props, [Text(s)])
  }

  /** Index of the last element child named `tag`: the child a
      first-to-last scan that overwrites on every match ends up holding. */
  function LastIndexOf(children: seq<Node>, tag: string): (r: Option<nat>)
    ensures r.Some? ==> r.value < |children| && IsElementNamed(children[r.value], tag)
    ensures r.Some? ==> forall k :: r.value < k < |children| ==> !IsElementNamed(children[k], tag)
    ensures r.None? ==> forall k :: 0 <= k < |children| ==> !IsElementNamed(children[k], tag)
    decreases |children|
  {
    if |children| == 0 then None
    else
      match LastIndexOf(children[1..], tag)
      case Some(j) => Some(j + 1)
      case None => if IsElementNamed(children[0], tag) then Some(0) else None
  }

  /** Index of the first element child named `tag`. */
  function FirstIndexOf(children: seq<Node>, tag: string): (r: Option<nat>)
    ensures r.Some? ==> r.value < |children| && IsElementNamed(children[r.value], tag)
    ensures r.Some? ==> forall k :: 0 <= k < r.value ==> !IsElementNamed(children[k], tag)
    ensures r.None? ==> forall k :: 0 <= k < |children| ==> !IsElementNamed(children[k], tag)
    decreases |children|
  {
    if |children| == 0 then None
    else if IsElementNamed(children[0], tag) then Some(0)
    else
      match FirstIndexOf(children[1..], tag)
      case Some(j) => Some(j + 1)
      case None => None
  }
}
